=== FILE: README.md ===
# Text-highlight anchoring and the highlight table, in Dafny

This project models the core of a browser extension's content script
(`content.js`). The script lets a reader highlight passages of a web page
and attach comments to them. It also saves the highlights, and it restores
them when the page is opened again. The model covers three parts:

- **the anchor.** `serializeTextPosition` and `getContextText` store a
  selection as its text, plus up to 50 characters of context on each side.
  `deserializeTextPosition` finds that text again. It builds an index of
  the page's text nodes, skipping scripts, styles and the extension's own
  decorations. It then searches the index for the leftmost occurrence of
  the stored passage and maps that occurrence back to a range. It keeps
  the range only when the range's text is the stored selected text;
- **the page edits.** The model covers wrapping a range in a highlight
  span, both with `surroundContents` and with its delete-and-insert
  fallback. It also covers unwrapping the span again, inserting and
  removing the comment label after the span, and recolouring the span;
- **the highlight table.** This is the `highlights` map together with
  `createHighlight`, `updateComment`, `changeHighlightColor`,
  `removeHighlight`, `saveHighlights`, `exportHighlights`,
  `importHighlights` and `loadHighlights`.

The page is a sequence of text leaves in document order. Each leaf carries
its text and the chain of elements above it, nearest first (`Dom.Leaf`).
An element is a plain element with a tag and classes, a highlight span or
a comment label. Spans and labels are identified by the highlight id they
carry, since the script finds them by their data attributes. A range has
both boundaries in text nodes. The table is a sequence of entries in
insertion order, because the order of a JavaScript `Map` decides the order
of the saved array.

Modules, in dependency order:

- `basics.dfy`: `Option`, `indexOf`, `substring`, `trim`.
- `dom.dfy`: leaves, elements, ranges, the page text and `range.toString()`.
- `textindex.dfy`: the walker and the index.
- `anchor.dfy`: the serializer.
- `resolver.dfy`: the resolver.
- `decoration.dfy`: the wrapping step of `createHighlight`.
- `edits.dfy`: unwrap, comment labels, recolour.
- `store.dfy`: the table and the page-level operations.

Two behaviours of the code are narrower than its own comments suggest,
and the model follows the code:

- **The walker checks only the direct parent.** The comment at
  content.js:51 says the walker searches only text that is not
  highlighted. The filter at content.js:57-61, however, rejects a text
  node only when its *direct parent* is a script, a style, a highlight
  span or a comment label. Text nested deeper inside a highlight span
  is still searched. `Dom.Leaf.Indexed` checks `ancestors[0]` only.
- **A round trip can fail on a page with skipped text.** The index drops
  the text of skipped nodes, but `range.toString()` does not. So a round
  trip through save and restore only holds when every skipped text node is
  empty (`Resolver.Clean`).
  - `Resolver.RoundTrip` proves the round trip under that hypothesis.
  - `Resolver.RoundTripCanFail` shows a concrete page on which it fails.
    The page has a paragraph holding "a", a script "X" and "b", then a
    second paragraph "ab". The
    passage "ab" is first found straddling the script, and the range built
    there reads "aXb", so nothing is restored.

## Model

| member | source | states |
|---|---|---|
| Basics.IndexOf | content.js:84-90 | `fullText.indexOf(fullPattern)` is the leftmost occurrence; none exactly when the pattern occurs nowhere |
| Basics.Substring | content.js:38-42 | `substring` clamps both indices into the string and swaps them when reversed: in-range calls give the slice, a negative index acts as 0, an index past the end acts as the length, and both indices on the same side give "" |
| Basics.Trim | content.js:219 | a trimmed comment is empty exactly when every character is trimmable, and otherwise starts and ends with a non-trimmable character |
| Anchor.GetContextText | content.js:33-46 | a text node gives the slice after the offset (positive length) or before it (negative length), at most `|length|` long; an element gives "" |
| Anchor.SerializeTextPosition | content.js:20-31 | the stored selected text is the range's text, the contexts are at most 50 characters of the boundary nodes, and before+selected+after is a passage of the page text starting right before the range |
| Anchor.ContextIsAdjacent | content.js:21-23 | the before-context ends where the range starts and the after-context begins where it ends, so the three form one occurrence in the page text |
| Dom.SpanningRangeIsSlice | content.js:21 | `range.toString()` over several text nodes is the contiguous slice of the page text between the two boundary points |
| TextIndex.BuildIndex | content.js:52-81 | the buffer is the concatenation of the accepted nodes, and each segment records exactly where its node's text lies in it, end to end and in document order |
| Resolver.Locate | content.js:99-110 | the start node is the first segment ending after the target start, the end node the first ending at or after the target end, and the loop stops there |
| Resolver.ScanSettles | content.js:99-110 | the mapping loop keeps its invariant from any segment on until it breaks |
| Resolver.Boundaries | content.js:96-116 | the boundary points found lie at the requested buffer positions, and both are found whenever the interval is non-empty and inside the buffer |
| Resolver.Resolve | content.js:48-127 | a result is a valid range with the stored selected text, anchored at the leftmost occurrence of the passage; no occurrence gives null; on a clean page a non-empty selection whose passage occurs is always found |
| Resolver.RoundTrip | content.js:20-127 | resolving the serialized position of a non-empty selection of a clean page gives a range with the same text |
| Resolver.RoundTripCanFail | content.js:57-120 | on a concrete page where the stored passage first occurs across a skipped script, resolving a freshly serialized selection of that page returns null |
| Decoration.Wrap | content.js:148-158 | wrapping, either way, keeps the page text and puts the span into the page; for a fresh id the span holds exactly the range's text and no label of that id appears |
| Decoration.WrapKeepsText | content.js:148-158 | the pieces that replace the wrapped text nodes carry the same text in order |
| Decoration.WrapSpanText | content.js:148-158 | for a fresh id, the text inside the new span is the range's text |
| Decoration.WrapNoComment | content.js:148-158 | wrapping adds no comment label |
| Edits.WrapAddsOnlySpan | content.js:148-158 | every element above a text node after wrapping was already above one, or is a span carrying the highlight's id |
| Edits.FirstOf | content.js:267 | `querySelector` by the span's id finds the first text node in the span, in document order |
| Edits.Unwrap | content.js:286-290 | when the span's text nodes form one run, that run is replaced by a single text node holding the span's text under the span's parent, with every other leaf unchanged; the page text is kept, the span is detached, and an absent span changes nothing |
| Edits.UnwrapAddsNoElement | content.js:286-290 | removing the span creates no element |
| Edits.UnwrapWrapped | content.js:286-290 | right after wrapping, unwrapping replaces the span's pieces by one text node with the range's text under the restored parent |
| Edits.CreateThenRemove | content.js:148-158 | wrapping a range under a fresh id and unwrapping it gives back the page, with the selection now its own text node between the unselected parts |
| Edits.InsertComment | content.js:226-245 | with the span present, the label `"(" + comment + ")"` is inserted right after the span's last text node, as a sibling of the span; every other leaf is kept in order, and the walker's text and the span's text are unchanged; without the span, nothing happens |
| Edits.InsertCommentAddsOnlyLabel | content.js:226-245 | every element above a text node after inserting the label was already above one, or is a span carrying the highlight's id |
| Edits.LabelHidden | content.js:230-241 | the label's text is skipped by the walker and lies outside the highlight span |
| Edits.RemoveComment | content.js:247-258 | after removal no label of the id remains; every text node outside the label is kept, and the page text is the old text outside the label, in order; without a label nothing changes |
| Edits.WithoutKeeps | content.js:247-252 | taking the label out keeps every text node outside it, and the remaining text is the page's text outside the label, in order |
| Edits.RemoveCommentAddsNoElement | content.js:247-252 | removing the label creates no element |
| Edits.CommentRoundTrip | content.js:226-252 | removing the label just inserted gives back the page |
| Edits.WithoutKeepsIndex | content.js:57-61 | removing skipped label text leaves the resolver's buffer unchanged |
| Edits.Recolor | content.js:266-270 | only the span of the id changes colour; every text, every other element and the page shape stay |
| Edits.RecolorKeepsStructure | content.js:266-270 | recolouring keeps which nodes the walker accepts and which nodes lie in each span and label |
| Edits.RecolorKeepsText | content.js:266-270 | recolouring keeps the page text, the resolver's buffer and every span's text |
| Edits.RecolorLastWins | content.js:266-270 | of two recolourings the later decides the page |
| Store.Find | content.js:210-211 | `highlights.get(id)` finds the first entry with that key, and none exactly when no entry has it |
| Store.Put | content.js:171 | `set` puts a new key last or replaces an existing key's entry in place, keeps every other entry, and keeps keys unique |
| Store.Delete | content.js:292 | `delete` keeps exactly the entries with other keys, in insertion order: a missing key changes nothing, and otherwise the entry is cut out of its place |
| Store.DeleteKeepsUnique | content.js:292 | deleting keeps the keys unique |
| Store.DeleteLast | content.js:292 | deleting the key added last restores the table before the addition |
| Store.Relabel | content.js:215-221 | the old label is removed; for a non-blank comment a new label `(comment)` is inserted right after the span's last text node (as `InsertComment` states), otherwise nothing is added; a label exists exactly when the comment is not blank and the span is present; the buffer and the span's text are kept |
| Store.RelabelLastWins | content.js:215-221 | of two relabellings the later decides the page |
| Store.Decorate | content.js:148-179 | for a fresh id the span holds the range's text, and a label is shown exactly when the comment is not blank |
| Store.CreateHighlight | content.js:131-183 | the entry is recorded under the id (last, for a new key); the only new entry is it; keys stay unique and texts consistent; for a fresh id the span holds the range's text and a label shows exactly for a non-blank comment |
| Store.UpdateComment | content.js:207-224 | an unknown id changes nothing; otherwise exactly the entry's comment becomes `newComment || ""` and the label is redone |
| Store.UpdateCommentLastWins | content.js:207-224 | of two comment updates the later decides both the table and the page |
| Store.ChangeColor | content.js:260-276 | with the entry and the span present, exactly that entry and that span take the new colour; otherwise nothing changes |
| Store.ChangeColorLastWins | content.js:260-276 | of two colour changes the later decides both the table and the page |
| Store.RemoveHighlight | content.js:278-294 | an unknown id changes nothing; otherwise the label goes, the span is replaced by its text as `Edits.Unwrap` states, the entry is gone, neither span nor label of the id remains, the page text apart from the label is kept, and no element is created |
| Store.CreateThenRemoveHighlight | content.js:278-294 | creating a highlight under a fresh id and removing it gives back the table, and the page with the selection split off as its own text node |
| Store.Snapshot | content.js:526-534 | the saved array has one record per entry, in table order, holding the entry's id, position, comment, colour and text, and no url |
| Store.Export | content.js:575-584 | the exported array is the saved array with each record also carrying the page's url |
| Store.RecordReloads | content.js:527-534 | a saved record whose position resolves to a range holding the entry's text is loaded back as an entry with the entry's text, colour and comment |
| Store.RemoveAll | content.js:589 | removing every listed key leaves exactly the entries with other keys; every listed key that had an entry has neither span nor label left on the page; no element is created |
| Store.AllKeysGone | content.js:589 | removing every key of the table empties it |
| Store.ImportResolving | content.js:587-600 | importing one record whose position resolves on the cleared page leaves exactly one entry, under the record's fresh id, with the record's selected text, colour and comment |
| Store.ImportOne | content.js:593-598 | a record without a position, or whose position does not resolve, changes nothing; a record whose position resolves to a range is handed to `createHighlight` with that range, its colour and its comment; at most one entry is added |
| Store.ImportOneKeepsOthers | content.js:593-598 | importing one record under `id` leaves every other unused id unused: only the new highlight's span and label are added |
| Store.ImportHighlights | content.js:587-600 | after an import every entry comes from some record under that record's fresh id, and stored texts match stored selections; there are at most as many entries as records, and with distinct fresh ids the keys are unique; the span and label of every old highlight are gone from the page unless a record's fresh id reuses its id |
| Store.LoadOne | content.js:558-566 | a record is loaded exactly when its position resolves to a range whose text is the stored text, and then through `createHighlight` with that range; otherwise nothing changes; at most one entry is added |
| Store.LoadHighlights | content.js:541-573 | loading happens once; missing saved data only marks the page initialized; every loaded entry comes from a saved record whose text it has; at most one entry is added per record, and with fresh distinct ids the keys stay unique |
| Store.LoadOnce | content.js:542-543 | a second load changes nothing |
| Store.Reload | content.js:557-563 | one saved record whose position resolves to its text is restored with its text, colour and comment |
| Store.SaveThenLoad | content.js:526-573 | a highlight saved from a clean page comes back, on reload of the same page, with the same text, colour and comment |

## Left out

- The tooltip and its buttons (content.js:298-496), the mouse-up handler
  (content.js:500-522), the event listeners on spans
  (content.js:185-199), initialisation timing (content.js:604-662) and
  the message handlers for the popup: these are user-interface code with
  no state of the core.
- `popup.js` and `background.js` are not part of this model.
- `generateId` (content.js:201-203) reads the clock and a random source.
  The id is a parameter of `Store.CreateHighlight`. Import and load take
  one id per record.
- `window.location`, `localStorage` and `JSON.parse`/`JSON.stringify`
  (content.js:526-539, 545-553) are left out. The url is a field of the
  page. The saved value is a parameter: `None` stands for a missing,
  empty or unreadable value, and `Some(records)` for a parsed array.
  A parsed value that is not an array is not modelled.
- The timestamp written with each saved or exported record is not
  modelled.
- Styles other than the background colour, and whether a colour string is
  valid CSS, are not modelled. A `null` colour passed explicitly is not
  modelled either: an absent colour (`None`) takes the default.
- Console logging is not modelled.
- Text is a sequence of characters. JavaScript strings are UTF-16, so
  `length`, `indexOf` and `substring` count code units; surrogate pairs
  and Unicode normalisation are not modelled.
- A range boundary inside an element rather than a text node is not
  modelled: every `Dom.Range` starts and ends inside text nodes. The
  selection handler takes the browser's range as it is, and a triple-click
  or a drag across block ends can give element boundaries. Those ranges
  are outside this model. `Anchor.GetContextText` still models its element
  branch.
- Edits.RemoveComment: removes every text node of the id's label, while
  `querySelector(...).remove()` removes the first label element only. The
  two coincide because the script never inserts a second label for an id
  without removing the first.
- Spans and labels are found by the id they carry, never through the
  entry's stored element references (`hl.span`, `hl.commentSpan`). The
  two agree as long as only the script edits its own decorations.
- Store.ImportOne: a record's position is either wholly present or
  absent. A partially filled position object is not modelled.
- Store.LoadHighlights: an exception thrown inside `createHighlight` for
  one record is not modelled. Only a missing position, which makes the
  resolver throw, is caught per record.
- Resolver.RoundTrip: stated for non-empty selections only. For an empty
  selection, the loop may settle on an end node before the start node.
  The selection handler only creates highlights for non-empty selections
  (content.js:500-522).

=== FILE: anchor.dfy ===
/** The position serializer: turns a live range into a content-addressed
    descriptor made of the selected text and a bounded window of context on
    each side, taken from the boundary text nodes only. */
module Anchor {
  import opened Basics
  import opened Dom

  /** How many characters of context are kept on each side. */
  const ContextLength: nat := 50

  /** The durable descriptor of a selection (`textPosition`). */
  datatype TextPosition = TextPosition(selectedText: string, beforeText: string, afterText: string, url: string) {

    /** The string the resolver searches for. */
    function Pattern(): string {
      beforeText + selectedText + afterText
    }
  }

  /** A range boundary container: a text node, or an element. */
  datatype Container = TextNode(text: string) | ElementNode

  /** `getContextText(node, offset, length)`: up to `length` characters after
      `offset` when `length` is positive, up to `-length` characters before it
      otherwise; always empty for an element. */
  function GetContextText(node: Container, offset: int, length: int): (r: string)
    ensures node.ElementNode? ==> r == ""
    ensures node.TextNode? && length > 0 && 0 <= offset <= |node.text| ==>
              r == node.text[offset..Min(offset + length, |node.text|)]
    ensures node.TextNode? && length <= 0 && 0 <= offset <= |node.text| ==>
              r == node.text[Max(0, offset + length)..offset]
    ensures length > 0 ==> |r| <= length
    ensures length <= 0 ==> |r| <= -length
  {
    match node
    case ElementNode => ""
    case TextNode(text) =>
      if length > 0 then Substring(text, offset, Min(offset + length, |text|))
      else Substring(text, Max(0, offset + length), offset)
  }

  /** `serializeTextPosition(range)`: the selected text, at most 50
      characters of the start node before the start, and at most 50
      characters of the end node after the end. Together they form a
      passage of the document text that contains the selection, with the
      selection right after the before-context. */
  function SerializeTextPosition(doc: Doc, r: Range, url: string): (p: TextPosition)
    requires ValidRange(doc, r)
    ensures p.selectedText == RangeText(doc, r) && p.url == url
    ensures |p.beforeText| <= ContextLength && |p.afterText| <= ContextLength
    ensures p.beforeText == doc[r.startLeaf].text[Max(0, r.startOffset - ContextLength)..r.startOffset]
    ensures p.afterText == doc[r.endLeaf].text[r.endOffset..Min(r.endOffset + ContextLength, |doc[r.endLeaf].text|)]
    ensures OccursAt(AllText(doc), p.Pattern(), TextOffset(doc, r.startLeaf, r.startOffset) - |p.beforeText|)
  {
    var p := TextPosition(
      RangeText(doc, r),
      GetContextText(TextNode(doc[r.startLeaf].text), r.startOffset, -(ContextLength as int)),
      GetContextText(TextNode(doc[r.endLeaf].text), r.endOffset, ContextLength),
      url);
    ContextIsAdjacent(doc, r, p);
    p
  }

  /** The before-context ends where the range starts and the after-context
      begins where it ends, so the three pieces are one passage of the
      document text. */
  lemma ContextIsAdjacent(doc: Doc, r: Range, p: TextPosition)
    requires ValidRange(doc, r)
    requires p.selectedText == RangeText(doc, r)
    requires p.beforeText == doc[r.startLeaf].text[Max(0, r.startOffset - ContextLength)..r.startOffset]
    requires p.afterText == doc[r.endLeaf].text[r.endOffset..Min(r.endOffset + ContextLength, |doc[r.endLeaf].text|)]
    ensures OccursAt(AllText(doc), p.Pattern(), TextOffset(doc, r.startLeaf, r.startOffset) - |p.beforeText|)
  {
    RangeTextIsSlice(doc, r);
    LeafAtOffset(doc, r.startLeaf);
    LeafAtOffset(doc, r.endLeaf);
    Passage(AllText(doc), doc[r.startLeaf].text, doc[r.endLeaf].text,
            TextOffset(doc, r.startLeaf, 0), TextOffset(doc, r.endLeaf, 0),
            r.startOffset, r.endOffset, p.beforeText, p.selectedText, p.afterText);
  }

  /** A slice of the start node ending at the start offset, the selection,
      and a slice of the end node starting at the end offset are three
      adjacent slices of the whole text. */
  lemma Passage(W: string, ts: string, te: string, s0: int, e0: int, so: int, eo: int,
                before: string, sel: string, after: string)
    requires 0 <= s0 && s0 + |ts| <= |W| && W[s0..s0 + |ts|] == ts
    requires 0 <= e0 && e0 + |te| <= |W| && W[e0..e0 + |te|] == te
    requires 0 <= so <= |ts| && 0 <= eo <= |te| && s0 + so <= e0 + eo
    requires |before| <= so && before == ts[so - |before|..so]
    requires eo + |after| <= |te| && after == te[eo..eo + |after|]
    requires sel == W[s0 + so..e0 + eo]
    ensures OccursAt(W, before + sel + after, s0 + so - |before|)
  {
    var i, a, b, j := s0 + so - |before|, s0 + so, e0 + eo, e0 + eo + |after|;
    SliceOfSlice(W, s0, s0 + |ts|, i - s0, a - s0);
    SliceOfSlice(W, e0, e0 + |te|, b - e0, j - e0);
    assert W[i..j] == W[i..a] + W[a..b] + W[b..j];
  }
}

=== FILE: basics.dfy ===
/** Small building blocks shared by the whole model: an optional value and the
    few JavaScript string primitives the annotation engine relies on
    (`substring`, `indexOf`, `trim`). */
module Basics {

  /** The conventional Some/None datatype, standing in for JavaScript's
      `null`/`undefined`. */
  datatype Option<+T> = None | Some(value: T) {

    /** The value, or `default` when there is none (a JavaScript default
        parameter receiving `undefined`). */
    function GetOr(default: T): (r: T)
      ensures Some? ==> r == value
      ensures None? ==> r == default
    {
      match this
      case Some(v) => v
      case None => default
    }
  }

  function Min(a: int, b: int): int { if a <= b then a else b }

  function Max(a: int, b: int): int { if a <= b then b else a }

  /** Clamps `x` into `[0, hi]`, as `String.prototype.substring` does with
      each of its arguments. */
  function Clamp(x: int, hi: nat): (r: nat)
    ensures r <= hi
    ensures 0 <= x <= hi ==> r == x
  {
    if x < 0 then 0 else if x > hi then hi else x
  }

  /** `s.substring(a, b)`: both indices clamped to the string, and swapped
      when they come in the wrong order. */
  function Substring(s: string, a: int, b: int): (r: string)
    ensures 0 <= a <= b <= |s| ==> r == s[a..b]
    ensures 0 <= b <= a <= |s| ==> r == s[b..a]
    ensures a <= 0 && 0 <= b <= |s| ==> r == s[..b]
    ensures b <= 0 && 0 <= a <= |s| ==> r == s[..a]
    ensures |s| <= a && 0 <= b <= |s| ==> r == s[b..]
    ensures |s| <= b && 0 <= a <= |s| ==> r == s[a..]
    ensures (a <= 0 && |s| <= b) || (b <= 0 && |s| <= a) ==> r == s
    ensures (a <= 0 && b <= 0) || (|s| <= a && |s| <= b) ==> r == ""
    ensures |r| <= |s|
  {
    var x := Clamp(a, |s|);
    var y := Clamp(b, |s|);
    if x <= y then s[x..y] else s[y..x]
  }

  /** `p` occurs in `s` starting at index `i`. */
  predicate OccursAt(s: string, p: string, i: int) {
    0 <= i && i + |p| <= |s| && s[i..i + |p|] == p
  }

  /** `s.indexOf(p)`: the leftmost index at which `p` occurs, `None` standing
      for the `-1` returned when it does not occur at all. */
  function IndexOf(s: string, p: string): (r: Option<nat>)
    ensures r.Some? ==> OccursAt(s, p, r.value)
    ensures r.Some? ==> forall i :: 0 <= i < r.value ==> !OccursAt(s, p, i)
    ensures r.None? <==> forall i :: !OccursAt(s, p, i)
  {
    IndexFrom(s, p, 0)
  }

  /** The leftmost occurrence of `p` in `s` at or after `from`. */
  function IndexFrom(s: string, p: string, from: nat): (r: Option<nat>)
    ensures r.Some? ==> from <= r.value && OccursAt(s, p, r.value)
    ensures r.Some? ==> forall i :: from <= i < r.value ==> !OccursAt(s, p, i)
    ensures r.None? ==> forall i :: from <= i ==> !OccursAt(s, p, i)
    decreases |s| - from
  {
    if from + |p| > |s| then None
    else if s[from..from + |p|] == p then Some(from)
    else IndexFrom(s, p, from + 1)
  }

  /** The characters `String.prototype.trim` strips: ECMAScript WhiteSpace
      (tab, vertical tab, form feed, space, no-break space, byte order mark
      and the Zs separators) and LineTerminator. */
  predicate IsTrimmable(c: char) {
    || c == '\t' || c == '\n' || c == '\U{000B}' || c == '\U{000C}' || c == '\r'
    || c == ' ' || c == '\U{00A0}' || c == '\U{1680}'
    || ('\U{2000}' <= c <= '\U{200A}')
    || c == '\U{2028}' || c == '\U{2029}' || c == '\U{202F}' || c == '\U{205F}'
    || c == '\U{3000}' || c == '\U{FEFF}'
  }

  /** Every character of `s` is stripped by `trim`. */
  predicate Blank(s: string) {
    forall i :: 0 <= i < |s| ==> IsTrimmable(s[i])
  }

  /** `s` with its leading trimmable characters removed. */
  function TrimStart(s: string): (r: string)
    ensures |r| <= |s| && r == s[|s| - |r|..]
    ensures |r| > 0 ==> !IsTrimmable(r[0])
    ensures forall i :: 0 <= i < |s| - |r| ==> IsTrimmable(s[i])
  {
    if |s| > 0 && IsTrimmable(s[0]) then TrimStart(s[1..]) else s
  }

  /** `s` with its trailing trimmable characters removed. */
  function TrimEnd(s: string): (r: string)
    ensures |r| <= |s| && r == s[..|r|]
    ensures |r| > 0 ==> !IsTrimmable(r[|r| - 1])
    ensures forall i :: |r| <= i < |s| ==> IsTrimmable(s[i])
  {
    if |s| > 0 && IsTrimmable(s[|s| - 1]) then TrimEnd(s[..|s| - 1]) else s
  }

  /** `s.trim()`: the string with trimmable characters removed from both
      ends. It is empty (falsy) exactly when every character is trimmable;
      otherwise it starts and ends with a character that is not. */
  function Trim(s: string): (r: string)
    ensures r == "" <==> Blank(s)
    ensures r != "" ==> !IsTrimmable(r[0]) && !IsTrimmable(r[|r| - 1])
  {
    TrimEnd(TrimStart(s))
  }

  /** Slicing a concatenation across the seam. */
  lemma SliceAcross<T>(a: seq<T>, b: seq<T>, i: int, j: int)
    requires 0 <= i <= |a| <= j <= |a| + |b|
    ensures (a + b)[i..j] == a[i..] + b[..j - |a|]
  {
  }

  /** Slicing a concatenation to the right of the seam. */
  lemma SliceRight<T>(a: seq<T>, b: seq<T>, i: int, j: int)
    requires |a| <= i <= j <= |a| + |b|
    ensures (a + b)[i..j] == b[i - |a|..j - |a|]
  {
  }

  /** A slice of a slice is a slice. */
  lemma SliceOfSlice<T>(w: seq<T>, x: int, y: int, i: int, j: int)
    requires 0 <= x <= y <= |w| && 0 <= i <= j <= y - x
    ensures w[x..y][i..j] == w[x + i..x + j]
  {
    var u := w[x..y];
    forall k | 0 <= k < j - i
      ensures u[i..j][k] == w[x + i..x + j][k]
    {
      assert u[i..j][k] == u[i + k] == w[x + i + k];
    }
  }
}

=== FILE: decoration.dfy ===
/** The document edits the highlighter performs: wrapping a range in a
    highlight span (in place, or by the delete-and-insert fallback),
    replacing a span by its text, inserting and removing the comment label,
    and recolouring a span. */
module Decoration {
  import opened Basics
  import opened Dom

  // ----- gathering over pieces of a document -----

  /** What one leaf contributes to a gathering. */
  function Part(x: Leaf, keep: Leaf -> bool): string {
    if keep(x) then x.text else ""
  }

  lemma GatherOne(a: Leaf, keep: Leaf -> bool)
    ensures Gather([a], keep) == Part(a, keep)
  {
    assert [a][1..] == [];
  }

  lemma GatherTwo(a: Leaf, b: Leaf, keep: Leaf -> bool)
    ensures Gather([a, b], keep) == Part(a, keep) + Part(b, keep)
  {
    assert [a, b] == [a] + [b];
    GatherAppend([a], [b], keep);
    GatherOne(a, keep);
    GatherOne(b, keep);
  }

  lemma GatherThree(a: Leaf, b: Leaf, c: Leaf, keep: Leaf -> bool)
    ensures Gather([a, b, c], keep) == Part(a, keep) + Part(b, keep) + Part(c, keep)
  {
    assert [a, b, c] == [a, b] + [c];
    GatherAppend([a, b], [c], keep);
    GatherTwo(a, b, keep);
    GatherOne(c, keep);
  }

  /** Two leaves, a run of leaves, two leaves. */
  lemma GatherFramed(a: Leaf, b: Leaf, m: seq<Leaf>, c: Leaf, d: Leaf, keep: Leaf -> bool)
    ensures Gather([a, b] + m + [c, d], keep) == Part(a, keep) + Part(b, keep) + Gather(m, keep) + Part(c, keep) + Part(d, keep)
  {
    GatherAppend([a, b] + m, [c, d], keep);
    GatherAppend([a, b], m, keep);
    GatherTwo(a, b, keep);
    GatherTwo(c, d, keep);
  }

  /** `doc` with the leaves `s..e` (inclusive) replaced by `mid`. */
  function Splice(doc: Doc, s: nat, e: nat, mid: seq<Leaf>): Doc
    requires s <= e < |doc|
  {
    doc[..s] + mid + doc[e + 1..]
  }

  lemma SpliceGather(doc: Doc, s: nat, e: nat, mid: seq<Leaf>, keep: Leaf -> bool)
    requires s <= e < |doc|
    ensures Gather(Splice(doc, s, e, mid), keep) == Gather(doc[..s], keep) + Gather(mid, keep) + Gather(doc[e + 1..], keep)
  {
    GatherAppend(doc[..s] + mid, doc[e + 1..], keep);
    GatherAppend(doc[..s], mid, keep);
  }

  /** A leaf property that holds on `doc` and on `mid` holds on the splice. */
  lemma SpliceAll(doc: Doc, s: nat, e: nat, mid: seq<Leaf>, P: Leaf -> bool)
    requires s <= e < |doc|
    requires forall k :: 0 <= k < |doc| ==> P(doc[k])
    requires forall k :: 0 <= k < |mid| ==> P(mid[k])
    ensures forall k :: 0 <= k < |Splice(doc, s, e, mid)| ==> P(Splice(doc, s, e, mid)[k])
  {
    var d := Splice(doc, s, e, mid);
    forall k | 0 <= k < |d|
      ensures P(d[k])
    {
      if k < s {
        assert d[k] == doc[k];
      } else if k < s + |mid| {
        assert d[k] == mid[k - s];
      } else {
        assert d[k] == doc[k - s - |mid| + e + 1];
      }
    }
  }

  /** The text of the leaves `s..e`: the start leaf, the leaves between,
      the end leaf. */
  lemma BlockText(doc: Doc, s: nat, e: nat)
    requires s < e < |doc|
    ensures AllText(doc[s..e + 1]) == doc[s].text + AllText(doc[s + 1..e]) + doc[e].text
  {
    assert doc[s..e + 1] == [doc[s]] + (doc[s + 1..e] + [doc[e]]);
    GatherAppend([doc[s]], doc[s + 1..e] + [doc[e]], _ => true);
    GatherAppend(doc[s + 1..e], [doc[e]], _ => true);
    assert [doc[s]][1..] == [] && [doc[e]][1..] == [];
  }

  lemma SplitAround(doc: Doc, s: nat, e: nat)
    requires s <= e < |doc|
    ensures AllText(doc) == AllText(doc[..s]) + AllText(doc[s..e + 1]) + AllText(doc[e + 1..])
  {
    assert doc == doc[..s] + doc[s..e + 1] + doc[e + 1..];
    GatherAppend(doc[..s] + doc[s..e + 1], doc[e + 1..], _ => true);
    GatherAppend(doc[..s], doc[s..e + 1], _ => true);
  }

  /** Gathering from leaves of which none is kept yields nothing. */
  lemma {:induction false} GatherNone(leaves: seq<Leaf>, keep: Leaf -> bool)
    requires forall k :: 0 <= k < |leaves| ==> !keep(leaves[k])
    ensures Gather(leaves, keep) == ""
  {
    if |leaves| > 0 {
      GatherNone(leaves[1..], keep);
    }
  }

  // ----- chains -----

  /** No element of `chain` is the comment label of `id`. */
  predicate CommentFree(chain: seq<Element>, id: string) {
    forall j :: 0 <= j < |chain| ==> !chain[j].IsCommentOf(id)
  }

  /** No element of `chain` is the highlight span of `id`. */
  predicate SpanFree(chain: seq<Element>, id: string) {
    forall j :: 0 <= j < |chain| ==> !chain[j].IsSpanOf(id)
  }

  /** The chain of a leaf moved into a new span whose parent chain is
      `parent`: the span goes right below the common parent. A chain that
      does not run through `parent` (which a tree never produces) gets the
      span at the bottom. */
  function Adopt(chain: seq<Element>, parent: seq<Element>, span: Element): (r: seq<Element>)
    ensures span in r
    ensures forall x :: x in r ==> x == span || x in chain
  {
    var n := |chain| - |parent|;
    if 0 <= n && chain[n..] == parent then chain[..n] + [span] + parent
    else [span] + chain
  }

  /** The chain of the parent the fallback inserts into: the lowest element
      above the start leaf that is also above the end leaf, and everything
      above it (the point where the deleted range collapses). */
  function CommonChain(a: seq<Element>, b: seq<Element>): (r: seq<Element>)
    ensures |r| <= |a| && r == a[|a| - |r|..]
    ensures |r| > 0 ==> r[0] in b
  {
    if |a| == 0 || a[0] in b then a
    else CommonChain(a[1..], b)
  }

  /** The part of `chain` above the outermost span of `id`: the chain of
      the span's parent. */
  function Above(chain: seq<Element>, id: string): (r: seq<Element>)
    ensures |r| <= |chain| && r == chain[|chain| - |r|..]
    ensures SpanFree(r, id)
    ensures |r| < |chain| ==> chain[|chain| - |r| - 1].IsSpanOf(id)
  {
    if |chain| == 0 || chain[|chain| - 1].IsSpanOf(id) then []
    else Above(chain[..|chain| - 1], id) + [chain[|chain| - 1]]
  }

  // ----- wrapping -----

  /** `range.surroundContents(span)` throws exactly when an element is only
      partly inside the range. With both boundaries in text nodes, that is
      when the two nodes differ and do not share their parent. */
  predicate Surroundable(doc: Doc, r: Range)
    requires ValidRange(doc, r)
  {
    r.startLeaf == r.endLeaf || doc[r.startLeaf].ancestors == doc[r.endLeaf].ancestors
  }

  /** The leaves strictly inside the range, moved into the span. */
  function AdoptAll(leaves: seq<Leaf>, parent: seq<Element>, span: Element): (r: seq<Leaf>)
    ensures |r| == |leaves|
    ensures forall k :: 0 <= k < |r| ==> r[k].text == leaves[k].text
    ensures forall k :: 0 <= k < |r| ==> span in r[k].ancestors
    ensures forall k, x :: 0 <= k < |r| && x in r[k].ancestors ==> x == span || x in leaves[k].ancestors
  {
    seq(|leaves|, k requires 0 <= k < |leaves| => Leaf(leaves[k].text, Adopt(leaves[k].ancestors, parent, span)))
  }

  /** `surroundContents` on a range inside one text node: the node is split
      at both offsets and the middle piece goes into the span. */
  function SplitOne(doc: Doc, r: Range, span: Element): seq<Leaf>
    requires ValidRange(doc, r) && r.startLeaf == r.endLeaf
  {
    var t, A := doc[r.startLeaf].text, doc[r.startLeaf].ancestors;
    [Leaf(t[..r.startOffset], A), Leaf(t[r.startOffset..r.endOffset], [span] + A), Leaf(t[r.endOffset..], A)]
  }

  /** `surroundContents` on a range across sibling text nodes: the
      selected pieces of the two boundary nodes and every leaf between go
      into the span, which takes the selection's place below the common
      parent. */
  function SplitMany(doc: Doc, r: Range, span: Element): seq<Leaf>
    requires ValidRange(doc, r) && r.startLeaf < r.endLeaf
  {
    var s, e := r.startLeaf, r.endLeaf;
    var ts, te := doc[s].text, doc[e].text;
    var A, B := doc[s].ancestors, doc[e].ancestors;
    [Leaf(ts[..r.startOffset], A), Leaf(ts[r.startOffset..], [span] + A)]
    + AdoptAll(doc[s + 1..e], A, span)
    + [Leaf(te[..r.endOffset], [span] + B), Leaf(te[r.endOffset..], B)]
  }

  /** The fallback: `deleteContents` keeps the unselected parts of the
      boundary text nodes and drops everything between, and the span,
      holding the range's text as one text node, is inserted where the
      range collapsed. A span without text is shown as an empty leaf. */
  function Refill(doc: Doc, r: Range, span: Element): seq<Leaf>
    requires ValidRange(doc, r)
  {
    var s, e := r.startLeaf, r.endLeaf;
    var A, B := doc[s].ancestors, doc[e].ancestors;
    [Leaf(doc[s].text[..r.startOffset], A),
     Leaf(RangeText(doc, r), [span] + CommonChain(A, B)),
     Leaf(doc[e].text[r.endOffset..], B)]
  }

  /** The leaves that replace the selected ones. */
  function WrapBlock(doc: Doc, r: Range, span: Element): seq<Leaf>
    requires ValidRange(doc, r)
  {
    if r.startLeaf == r.endLeaf then SplitOne(doc, r, span)
    else if Surroundable(doc, r) then SplitMany(doc, r, span)
    else Refill(doc, r, span)
  }

  /** The `try { surroundContents } catch { fallback }` of
      `createHighlight`. Either way the page text is unchanged and the span
      is in the document; for a fresh id, the span's text is exactly the
      range's text and no comment label of that id appears. */
  function Wrap(doc: Doc, r: Range, id: string, color: string): (d: Doc)
    requires ValidRange(doc, r)
    ensures AllText(d) == AllText(doc)
    ensures SpanAttached(d, id)
    ensures IdUnused(doc, id) ==> SpanText(d, id) == RangeText(doc, r)
    ensures !CommentAttached(doc, id) ==> !CommentAttached(d, id)
  {
    var span := HighlightSpan(id, color);
    var block := WrapBlock(doc, r, span);
    var d := Splice(doc, r.startLeaf, r.endLeaf, block);
    WrapKeepsText(doc, r, span);
    WrapAttaches(doc, r, span);
    if IdUnused(doc, id) then
      WrapSpanText(doc, r, span);
      WrapNoComment(doc, r, span);
      d
    else if !CommentAttached(doc, id) then
      WrapNoComment(doc, r, span);
      d
    else d
  }

  /** The replacing leaves carry the text of the replaced ones. */
  lemma WrapKeepsText(doc: Doc, r: Range, span: Element)
    requires ValidRange(doc, r)
    ensures AllText(Splice(doc, r.startLeaf, r.endLeaf, WrapBlock(doc, r, span))) == AllText(doc)
  {
    var s, e := r.startLeaf, r.endLeaf;
    var block := WrapBlock(doc, r, span);
    SpliceGather(doc, s, e, block, _ => true);
    SplitAround(doc, s, e);
    BlockKeepsText(doc, r, span);
  }

  lemma BlockKeepsText(doc: Doc, r: Range, span: Element)
    requires ValidRange(doc, r)
    ensures AllText(WrapBlock(doc, r, span)) == AllText(doc[r.startLeaf..r.endLeaf + 1])
  {
    if r.startLeaf == r.endLeaf {
      SplitOneText(doc, r, span);
    } else if Surroundable(doc, r) {
      SplitManyText(doc, r, span);
    } else {
      RefillText(doc, r, span);
    }
  }

  lemma SplitOneText(doc: Doc, r: Range, span: Element)
    requires ValidRange(doc, r) && r.startLeaf == r.endLeaf
    ensures AllText(SplitOne(doc, r, span)) == AllText(doc[r.startLeaf..r.endLeaf + 1])
  {
    var s := r.startLeaf;
    var ts, so, eo := doc[s].text, r.startOffset, r.endOffset;
    var block := SplitOne(doc, r, span);
    assert doc[s..s + 1] == [doc[s]];
    GatherOne(doc[s], _ => true);
    GatherThree(block[0], block[1], block[2], _ => true);
    assert ts[..so] + ts[so..eo] + ts[eo..] == ts;
  }

  lemma RefillText(doc: Doc, r: Range, span: Element)
    requires ValidRange(doc, r) && r.startLeaf < r.endLeaf
    ensures AllText(Refill(doc, r, span)) == AllText(doc[r.startLeaf..r.endLeaf + 1])
  {
    var s, e := r.startLeaf, r.endLeaf;
    var ts, te, M := doc[s].text, doc[e].text, AllText(doc[s + 1..e]);
    var so, eo := r.startOffset, r.endOffset;
    var A, B := doc[s].ancestors, doc[e].ancestors;
    var x, y, z := Leaf(ts[..so], A), Leaf(RangeText(doc, r), [span] + CommonChain(A, B)), Leaf(te[eo..], B);
    assert Refill(doc, r, span) == [x, y, z];
    assert y.text == ts[so..] + M + te[..eo];
    var W := ts + M + te;
    assert AllText(doc[s..e + 1]) == W by {
      BlockText(doc, s, e);
    }
    assert AllText([x, y, z]) == W by {
      ThreePieces(x, y, z, ts, te, M, so, eo);
    }
  }

  /** Three leaves holding the text before the start offset, the selection,
      and the text after the end offset. */
  lemma ThreePieces(x: Leaf, y: Leaf, z: Leaf, ts: string, te: string, M: string, so: int, eo: int)
    requires 0 <= so <= |ts| && 0 <= eo <= |te|
    requires x.text == ts[..so] && y.text == ts[so..] + M + te[..eo] && z.text == te[eo..]
    ensures AllText([x, y, z]) == ts + M + te
  {
    GatherThree(x, y, z, _ => true);
    Regroup(ts, te, M, so, eo);
  }

  /** Cutting the two boundary texts at the offsets and gluing the pieces
      back around the middle gives the block's text. */
  lemma Regroup(ts: string, te: string, M: string, so: int, eo: int)
    requires 0 <= so <= |ts| && 0 <= eo <= |te|
    ensures ts[..so] + (ts[so..] + M + te[..eo]) + te[eo..] == ts + M + te
  {
    assert ts[..so] + ts[so..] == ts;
    assert te[..eo] + te[eo..] == te;
  }

  /** What each piece of the in-place block contributes to a gathering. */
  lemma SplitManyGather(doc: Doc, r: Range, span: Element, keep: Leaf -> bool)
    requires ValidRange(doc, r) && r.startLeaf < r.endLeaf
    ensures
      var s, e := r.startLeaf, r.endLeaf;
      var ts, te, so, eo := doc[s].text, doc[e].text, r.startOffset, r.endOffset;
      var A, B := doc[s].ancestors, doc[e].ancestors;
      Gather(SplitMany(doc, r, span), keep)
      == Part(Leaf(ts[..so], A), keep) + Part(Leaf(ts[so..], [span] + A), keep)
         + Gather(AdoptAll(doc[s + 1..e], A, span), keep)
         + Part(Leaf(te[..eo], [span] + B), keep) + Part(Leaf(te[eo..], B), keep)
  {
    var s, e := r.startLeaf, r.endLeaf;
    var ts, te, so, eo := doc[s].text, doc[e].text, r.startOffset, r.endOffset;
    var A, B := doc[s].ancestors, doc[e].ancestors;
    var a, b, m, c, d := Leaf(ts[..so], A), Leaf(ts[so..], [span] + A), AdoptAll(doc[s + 1..e], A, span),
                         Leaf(te[..eo], [span] + B), Leaf(te[eo..], B);
    assert SplitMany(doc, r, span) == [a, b] + m + [c, d];
    GatherFramed(a, b, m, c, d, keep);
  }

  lemma SplitManyText(doc: Doc, r: Range, span: Element)
    requires ValidRange(doc, r) && r.startLeaf < r.endLeaf
    ensures AllText(SplitMany(doc, r, span)) == AllText(doc[r.startLeaf..r.endLeaf + 1])
  {
    var s, e := r.startLeaf, r.endLeaf;
    var ts, te := doc[s].text, doc[e].text;
    var mid := doc[s + 1..e];
    var M := AllText(mid);
    var so, eo := r.startOffset, r.endOffset;
    var W := ts + M + te;
    assert AllText(doc[s..e + 1]) == W by {
      BlockText(doc, s, e);
    }
    assert AllText(SplitMany(doc, r, span)) == ts[..so] + ts[so..] + M + te[..eo] + te[eo..] by {
      SplitManyPieces(doc, r, span);
    }
    Regroup5(ts, te, M, so, eo);
  }

  /** The in-place block's text, piece by piece. */
  lemma SplitManyPieces(doc: Doc, r: Range, span: Element)
    requires ValidRange(doc, r) && r.startLeaf < r.endLeaf
    ensures
      var s, e := r.startLeaf, r.endLeaf;
      var ts, te, so, eo := doc[s].text, doc[e].text, r.startOffset, r.endOffset;
      AllText(SplitMany(doc, r, span)) == ts[..so] + ts[so..] + AllText(doc[s + 1..e]) + te[..eo] + te[eo..]
  {
    var s, e := r.startLeaf, r.endLeaf;
    var ts, te, so, eo := doc[s].text, doc[e].text, r.startOffset, r.endOffset;
    var A, B := doc[s].ancestors, doc[e].ancestors;
    var mid := doc[s + 1..e];
    var a, b, m, c, d := Leaf(ts[..so], A), Leaf(ts[so..], [span] + A), AdoptAll(mid, A, span),
                         Leaf(te[..eo], [span] + B), Leaf(te[eo..], B);
    assert SplitMany(doc, r, span) == [a, b] + m + [c, d];
    FramedText(a, b, m, c, d);
    assert AllText(m) == AllText(mid) by {
      GatherCongruent(m, mid, _ => true, _ => true);
    }
  }

  /** The text of a frame is its pieces' text in order. */
  lemma FramedText(a: Leaf, b: Leaf, m: seq<Leaf>, c: Leaf, d: Leaf)
    ensures AllText([a, b] + m + [c, d]) == a.text + b.text + AllText(m) + c.text + d.text
  {
    GatherFramed(a, b, m, c, d, _ => true);
  }

  lemma Regroup5(ts: string, te: string, M: string, so: int, eo: int)
    requires 0 <= so <= |ts| && 0 <= eo <= |te|
    ensures ts[..so] + ts[so..] + M + te[..eo] + te[eo..] == ts + M + te
  {
    assert ts[..so] + ts[so..] == ts;
    assert te[..eo] + te[eo..] == te;
  }

  /** The span's first text node sits right after the start leaf's
      unselected part. */
  lemma WrapAttaches(doc: Doc, r: Range, span: Element)
    requires ValidRange(doc, r) && span.HighlightSpan?
    ensures SpanAttached(Splice(doc, r.startLeaf, r.endLeaf, WrapBlock(doc, r, span)), span.id)
  {
    var block := WrapBlock(doc, r, span);
    var d := Splice(doc, r.startLeaf, r.endLeaf, block);
    assert block[1].ancestors[0] == span;
    assert d[r.startLeaf + 1] == block[1];
    assert d[r.startLeaf + 1].InSpan(span.id);
  }

  /** For a fresh id, the span holds exactly the range's text: the leaves
      outside the block are not in it, and the block's leaves in it carry
      the selected text. */
  lemma WrapSpanText(doc: Doc, r: Range, span: Element)
    requires ValidRange(doc, r) && span.HighlightSpan? && IdUnused(doc, span.id)
    ensures SpanText(Splice(doc, r.startLeaf, r.endLeaf, WrapBlock(doc, r, span)), span.id) == RangeText(doc, r)
  {
    var id := span.id;
    var keep := (l: Leaf) => l.InSpan(id);
    var s, e := r.startLeaf, r.endLeaf;
    var block := WrapBlock(doc, r, span);
    SpliceGather(doc, s, e, block, keep);
    var pre, post := doc[..s], doc[e + 1..];
    assert forall k :: 0 <= k < |pre| ==> !keep(pre[k]);
    GatherNone(pre, keep);
    assert forall k :: 0 <= k < |post| ==> !keep(post[k]) by {
      forall k | 0 <= k < |post|
        ensures !keep(post[k])
      {
        assert post[k] == doc[e + 1 + k];
      }
    }
    GatherNone(post, keep);
    assert !doc[s].InSpan(id) && !doc[e].InSpan(id);
    if s < e && Surroundable(doc, r) {
      SplitManySpanText(doc, r, span);
    } else {
      assert !block[0].InSpan(id) && !block[2].InSpan(id);
      assert block[1].ancestors[0] == span;
      GatherThree(block[0], block[1], block[2], keep);
    }
  }

  lemma SplitManySpanText(doc: Doc, r: Range, span: Element)
    requires ValidRange(doc, r) && r.startLeaf < r.endLeaf
    requires span.HighlightSpan? && IdUnused(doc, span.id)
    ensures SpanText(SplitMany(doc, r, span), span.id) == RangeText(doc, r)
  {
    var s, e := r.startLeaf, r.endLeaf;
    var ts, te, so, eo := doc[s].text, doc[e].text, r.startOffset, r.endOffset;
    var mid := doc[s + 1..e];
    var adopted := AdoptAll(mid, doc[s].ancestors, span);
    assert SpanText(SplitMany(doc, r, span), span.id) == ts[so..] + SpanText(adopted, span.id) + te[..eo] by {
      SplitManySpanPieces(doc, r, span);
    }
    assert SpanText(adopted, span.id) == AllText(mid) by {
      AdoptedSpanText(mid, doc[s].ancestors, span);
    }
    assert RangeText(doc, r) == ts[so..] + AllText(mid) + te[..eo];
  }

  /** What each piece of the in-place block contributes to the span's
      text: the two unselected parts nothing, the rest all. */
  lemma SplitManySpanPieces(doc: Doc, r: Range, span: Element)
    requires ValidRange(doc, r) && r.startLeaf < r.endLeaf
    requires span.HighlightSpan? && IdUnused(doc, span.id)
    ensures var s, e := r.startLeaf, r.endLeaf;
            var ts, te, so, eo := doc[s].text, doc[e].text, r.startOffset, r.endOffset;
            SpanText(SplitMany(doc, r, span), span.id)
            == ts[so..] + SpanText(AdoptAll(doc[s + 1..e], doc[s].ancestors, span), span.id) + te[..eo]
  {
    var id := span.id;
    var s, e := r.startLeaf, r.endLeaf;
    var ts, te, so, eo := doc[s].text, doc[e].text, r.startOffset, r.endOffset;
    var A, B := doc[s].ancestors, doc[e].ancestors;
    var a, b, m, c, d := Leaf(ts[..so], A), Leaf(ts[so..], [span] + A), AdoptAll(doc[s + 1..e], A, span),
                         Leaf(te[..eo], [span] + B), Leaf(te[eo..], B);
    assert SplitMany(doc, r, span) == [a, b] + m + [c, d];
    assert !a.InSpan(id) && !d.InSpan(id) by {
      assert !doc[s].InSpan(id) && !doc[e].InSpan(id);
    }
    assert b.InSpan(id) && c.InSpan(id) by {
      assert b.ancestors[0] == span && c.ancestors[0] == span;
    }
    FramedSpanText(a, b, m, c, d, id);
  }

  /** A frame whose outer leaves are outside the span and whose inner ones
      are inside it contributes the inner leaves' text. */
  lemma FramedSpanText(a: Leaf, b: Leaf, m: seq<Leaf>, c: Leaf, d: Leaf, id: string)
    requires !a.InSpan(id) && b.InSpan(id) && c.InSpan(id) && !d.InSpan(id)
    ensures SpanText([a, b] + m + [c, d], id) == b.text + SpanText(m, id) + c.text
  {
    GatherFramed(a, b, m, c, d, (l: Leaf) => l.InSpan(id));
    assert "" + b.text + SpanText(m, id) + c.text + "" == b.text + SpanText(m, id) + c.text;
  }

  /** Every adopted leaf is inside the span, so the span holds all their
      text. */
  lemma AdoptedSpanText(mid: seq<Leaf>, A: seq<Element>, span: Element)
    requires span.HighlightSpan?
    ensures SpanText(AdoptAll(mid, A, span), span.id) == AllText(mid)
  {
    var keep := (l: Leaf) => l.InSpan(span.id);
    var adopted := AdoptAll(mid, A, span);
    forall k | 0 <= k < |adopted|
      ensures keep(adopted[k])
    {
      var j :| 0 <= j < |adopted[k].ancestors| && adopted[k].ancestors[j] == span;
    }
    GatherCongruent(adopted, mid, keep, _ => true);
  }

  /** A chain made of highlight spans and elements of a comment-free chain
      is comment-free. */
  lemma FreeFrom(c: seq<Element>, base: seq<Element>, id: string)
    requires CommentFree(base, id)
    requires forall x :: x in c ==> x.HighlightSpan? || x in base
    ensures CommentFree(c, id)
  {
    forall j | 0 <= j < |c|
      ensures !c[j].IsCommentOf(id)
    {
      assert c[j] in c;
    }
  }

  /** Wrapping adds no comment label. */
  lemma WrapNoComment(doc: Doc, r: Range, span: Element)
    requires ValidRange(doc, r) && span.HighlightSpan? && !CommentAttached(doc, span.id)
    ensures !CommentAttached(Splice(doc, r.startLeaf, r.endLeaf, WrapBlock(doc, r, span)), span.id)
  {
    var id := span.id;
    var s, e := r.startLeaf, r.endLeaf;
    var block := WrapBlock(doc, r, span);
    assert CommentFree(doc[s].ancestors, id) && CommentFree(doc[e].ancestors, id);
    assert BlockFree(block, id) by {
      if s == e {
        SplitOneFree(doc, r, span);
      } else if Surroundable(doc, r) {
        SplitManyFree(doc, r, span);
      } else {
        RefillFree(doc, r, span);
      }
    }
    SpliceAll(doc, s, e, block, (l: Leaf) => !l.InComment(id));
  }

  /** No leaf of `block` is inside a comment label of `id`. */
  predicate BlockFree(block: seq<Leaf>, id: string) {
    forall k :: 0 <= k < |block| ==> CommentFree(block[k].ancestors, id)
  }

  lemma SplitOneFree(doc: Doc, r: Range, span: Element)
    requires ValidRange(doc, r) && r.startLeaf == r.endLeaf && span.HighlightSpan?
    requires CommentFree(doc[r.startLeaf].ancestors, span.id)
    ensures BlockFree(SplitOne(doc, r, span), span.id)
  {
    var A := doc[r.startLeaf].ancestors;
    FreeFrom([span] + A, A, span.id);
  }

  lemma SplitManyFree(doc: Doc, r: Range, span: Element)
    requires ValidRange(doc, r) && r.startLeaf < r.endLeaf && span.HighlightSpan?
    requires !CommentAttached(doc, span.id)
    ensures BlockFree(SplitMany(doc, r, span), span.id)
  {
    var id := span.id;
    var s, e := r.startLeaf, r.endLeaf;
    var A, B := doc[s].ancestors, doc[e].ancestors;
    var block := SplitMany(doc, r, span);
    var mid := doc[s + 1..e];
    var adopted := AdoptAll(mid, A, span);
    assert CommentFree(A, id) && CommentFree(B, id);
    FreeFrom([span] + A, A, id);
    FreeFrom([span] + B, B, id);
    forall k | 2 <= k < |block| - 2
      ensures CommentFree(block[k].ancestors, id)
    {
      assert block[k] == adopted[k - 2];
      assert mid[k - 2] == doc[s + 1 + (k - 2)];
      assert CommentFree(mid[k - 2].ancestors, id);
      FreeFrom(block[k].ancestors, mid[k - 2].ancestors, id);
    }
  }

  lemma RefillFree(doc: Doc, r: Range, span: Element)
    requires ValidRange(doc, r) && span.HighlightSpan?
    requires CommentFree(doc[r.startLeaf].ancestors, span.id) && CommentFree(doc[r.endLeaf].ancestors, span.id)
    ensures BlockFree(Refill(doc, r, span), span.id)
  {
    var s, e := r.startLeaf, r.endLeaf;
    var A, B := doc[s].ancestors, doc[e].ancestors;
    var C := CommonChain(A, B);
    var x, y, z := Leaf(doc[s].text[..r.startOffset], A), Leaf(RangeText(doc, r), [span] + C), Leaf(doc[e].text[r.endOffset..], B);
    assert Refill(doc, r, span) == [x, y, z];
    assert CommentFree(y.ancestors, span.id) by {
      CommonInFirst(A, B);
      FreeFrom([span] + C, A, span.id);
    }
    ThreeFree(x, y, z, span.id);
  }

  lemma ThreeFree(x: Leaf, y: Leaf, z: Leaf, id: string)
    requires CommentFree(x.ancestors, id) && CommentFree(y.ancestors, id) && CommentFree(z.ancestors, id)
    ensures BlockFree([x, y, z], id)
  {
  }

  /** The common chain is part of the first chain. */
  lemma CommonInFirst(a: seq<Element>, b: seq<Element>)
    ensures forall x :: x in CommonChain(a, b) ==> x in a
  {
    var c := CommonChain(a, b);
    forall x | x in c
      ensures x in a
    {
      var j :| 0 <= j < |c| && c[j] == x;
      assert a[|a| - |c| + j] == x;
    }
  }
}

=== FILE: dom.dfy ===
/** The document as the annotation engine sees it: the text nodes under the
    body, in document order, each with the chain of elements above it.
    Elements without text below them are invisible to every operation of the
    engine and are not represented. */
module Dom {
  import opened Basics

  /** An element above some text node. Page elements carry an identity `eid`
      (two `Plain` values are the same element exactly when they are equal).
      The two kinds of span the engine inserts are identified by the
      highlight id they carry in their data attribute. */
  datatype Element =
    | Plain(eid: nat, tag: string, classes: set<string>)
      /** `<span class="highlight-text" data-highlight-id=id>` with background `color` */
    | HighlightSpan(id: string, color: string)
      /** `<span class="comment-display" data-comment-for=id>` */
    | CommentSpan(id: string)
  {
    /** `element.tagName` */
    function TagName(): string {
      match this
      case Plain(_, tag, _) => tag
      case _ => "SPAN"
    }

    /** `element.classList` */
    function ClassList(): set<string> {
      match this
      case Plain(_, _, classes) => classes
      case HighlightSpan(_, _) => {"highlight-text"}
      case CommentSpan(_) => {"comment-display"}
    }

    /** The index walker rejects a text node whose parent is this element:
        script and style content, and text already inside a decoration. */
    predicate HidesText() {
      || TagName() == "SCRIPT" || TagName() == "STYLE"
      || "highlight-text" in ClassList() || "comment-display" in ClassList()
    }

    predicate IsSpanOf(id: string) {
      HighlightSpan? && this.id == id
    }

    predicate IsCommentOf(id: string) {
      CommentSpan? && this.id == id
    }
  }

  /** A text node: its character data and its ancestors, nearest first
      (`ancestors[0]` is `parentElement`). */
  datatype Leaf = Leaf(text: string, ancestors: seq<Element>) {

    /** Accepted by the index walker: only the direct parent is consulted,
        so text nested deeper inside a decoration is still accepted. */
    predicate Indexed() {
      |ancestors| == 0 || !ancestors[0].HidesText()
    }

    /** The leaf lies inside the highlight span of `id`. */
    predicate InSpan(id: string) {
      exists j :: 0 <= j < |ancestors| && ancestors[j].IsSpanOf(id)
    }

    /** The leaf lies inside the comment span of `id`. */
    predicate InComment(id: string) {
      exists j :: 0 <= j < |ancestors| && ancestors[j].IsCommentOf(id)
    }
  }

  type Doc = seq<Leaf>

  /** A live range whose two boundary points lie in text nodes:
      `(startContainer, startOffset)` and `(endContainer, endOffset)`, the
      containers given by their position in the document. */
  datatype Range = Range(startLeaf: nat, startOffset: int, endLeaf: nat, endOffset: int)

  /** Both boundary points exist and the start does not come after the end. */
  predicate ValidRange(doc: Doc, r: Range) {
    && r.startLeaf <= r.endLeaf < |doc|
    && 0 <= r.startOffset <= |doc[r.startLeaf].text|
    && 0 <= r.endOffset <= |doc[r.endLeaf].text|
    && (r.startLeaf == r.endLeaf ==> r.startOffset <= r.endOffset)
  }

  /** The text of the leaves `keep` selects, concatenated in order. */
  function Gather(leaves: seq<Leaf>, keep: Leaf -> bool): string {
    if |leaves| == 0 then ""
    else (if keep(leaves[0]) then leaves[0].text else "") + Gather(leaves[1..], keep)
  }

  /** All the character data of `leaves`, in document order
      (`textContent` of the region). */
  function AllText(leaves: seq<Leaf>): string {
    Gather(leaves, _ => true)
  }

  /** The text of the leaves inside the highlight span of `id`: the span's
      `textContent` when its leaves are contiguous. */
  function SpanText(leaves: seq<Leaf>, id: string): string {
    Gather(leaves, (l: Leaf) => l.InSpan(id))
  }

  /** `document.querySelector([data-highlight-id=id])` finds something. */
  predicate SpanAttached(doc: Doc, id: string) {
    exists k :: 0 <= k < |doc| && doc[k].InSpan(id)
  }

  /** `document.querySelector([data-comment-for=id])` finds something. */
  predicate CommentAttached(doc: Doc, id: string) {
    exists k :: 0 <= k < |doc| && doc[k].InComment(id)
  }

  /** No element of the document carries the id `id`. */
  predicate IdUnused(doc: Doc, id: string) {
    !SpanAttached(doc, id) && !CommentAttached(doc, id)
  }

  /** `range.toString()`: the selected part of the start node, every text
      node strictly between, and the selected part of the end node. */
  function RangeText(doc: Doc, r: Range): string
    requires ValidRange(doc, r)
  {
    var s := doc[r.startLeaf].text;
    var e := doc[r.endLeaf].text;
    if r.startLeaf == r.endLeaf then s[r.startOffset..r.endOffset]
    else s[r.startOffset..] + AllText(doc[r.startLeaf + 1..r.endLeaf]) + e[..r.endOffset]
  }

  /** Position of offset `o` of leaf `k` within the whole document text. */
  function TextOffset(doc: Doc, k: nat, o: int): int
    requires k <= |doc|
  {
    |AllText(doc[..k])| + o
  }

  lemma {:induction false} GatherAppend(a: seq<Leaf>, b: seq<Leaf>, keep: Leaf -> bool)
    ensures Gather(a + b, keep) == Gather(a, keep) + Gather(b, keep)
  {
    if |a| == 0 {
      assert a + b == b;
    } else {
      assert (a + b)[1..] == a[1..] + b;
      GatherAppend(a[1..], b, keep);
    }
  }

  /** Gathering is the same on two sequences that agree leaf by leaf on
      what is kept and on its text. */
  lemma {:induction false} GatherCongruent(a: seq<Leaf>, b: seq<Leaf>, p: Leaf -> bool, q: Leaf -> bool)
    requires |a| == |b|
    requires forall i :: 0 <= i < |a| ==> p(a[i]) == q(b[i]) && (p(a[i]) ==> a[i].text == b[i].text)
    ensures Gather(a, p) == Gather(b, q)
  {
    if |a| > 0 {
      GatherCongruent(a[1..], b[1..], p, q);
    }
  }

  /** The whole text splits around leaf `k`. */
  lemma LeafSplit(doc: Doc, k: nat)
    requires k < |doc|
    ensures AllText(doc) == AllText(doc[..k]) + doc[k].text + AllText(doc[k + 1..])
  {
    assert doc == doc[..k] + ([doc[k]] + doc[k + 1..]);
    GatherAppend(doc[..k], [doc[k]] + doc[k + 1..], _ => true);
    GatherAppend([doc[k]], doc[k + 1..], _ => true);
  }

  /** The text of a range is the slice of the whole document text between
      the positions of its two boundary points. */
  lemma RangeTextIsSlice(doc: Doc, r: Range)
    requires ValidRange(doc, r)
    ensures TextOffset(doc, r.startLeaf, r.startOffset) <= TextOffset(doc, r.endLeaf, r.endOffset) <= |AllText(doc)|
    ensures RangeText(doc, r) == AllText(doc)[TextOffset(doc, r.startLeaf, r.startOffset)..TextOffset(doc, r.endLeaf, r.endOffset)]
  {
    var s := r.startLeaf;
    LeafSplit(doc, s);
    if s == r.endLeaf {
      var X := AllText(doc[..s]);
      SliceRight(X, doc[s].text + AllText(doc[s + 1..]), |X| + r.startOffset, |X| + r.endOffset);
    } else {
      SpanningRangeIsSlice(doc, r);
    }
  }

  lemma SpanningRangeIsSlice(doc: Doc, r: Range)
    requires ValidRange(doc, r) && r.startLeaf < r.endLeaf
    ensures TextOffset(doc, r.startLeaf, r.startOffset) <= TextOffset(doc, r.endLeaf, r.endOffset) <= |AllText(doc)|
    ensures RangeText(doc, r) == AllText(doc)[TextOffset(doc, r.startLeaf, r.startOffset)..TextOffset(doc, r.endLeaf, r.endOffset)]
  {
    var s, e := r.startLeaf, r.endLeaf;
    var X, ts, M, te, Y := AllText(doc[..s]), doc[s].text, AllText(doc[s + 1..e]), doc[e].text, AllText(doc[e + 1..]);
    assert AllText(doc) == X + (ts + (M + (te + Y))) by {
      FiveParts(doc, s, e);
    }
    assert AllText(doc[..e]) == X + ts + M by {
      FiveParts(doc, s, e);
    }
    SliceOfParts(X, ts, M, te, Y, r.startOffset, r.endOffset);
  }

  /** The text of a document cut at two leaves. */
  lemma FiveParts(doc: Doc, s: nat, e: nat)
    requires s < e < |doc|
    ensures AllText(doc[..e]) == AllText(doc[..s]) + doc[s].text + AllText(doc[s + 1..e])
    ensures AllText(doc) == AllText(doc[..s]) + (doc[s].text + (AllText(doc[s + 1..e]) + (doc[e].text + AllText(doc[e + 1..]))))
  {
    LeafSplit(doc[..e], s);
    assert doc[..e][..s] == doc[..s];
    assert doc[..e][s + 1..] == doc[s + 1..e];
    LeafSplit(doc, e);
  }

  /** The slice from inside the second part to inside the fourth. */
  lemma SliceOfParts(X: string, ts: string, M: string, te: string, Y: string, so: int, eo: int)
    requires 0 <= so <= |ts| && 0 <= eo <= |te|
    ensures (X + (ts + (M + (te + Y))))[|X| + so..|X| + |ts| + |M| + eo] == ts[so..] + M + te[..eo]
  {
    var i, j := |X| + so, |X| + |ts| + |M| + eo;
    SliceRight(X, ts + (M + (te + Y)), i, j);
    SliceAcross(ts, M + (te + Y), so, j - |X|);
    var Z := M + (te + Y);
    assert Z[..|M| + eo] == M + te[..eo];
  }

  /** Leaf `k`'s text sits at its offset in the whole document text. */
  lemma LeafAtOffset(doc: Doc, k: nat)
    requires k < |doc|
    ensures TextOffset(doc, k, |doc[k].text|) <= |AllText(doc)|
    ensures AllText(doc)[TextOffset(doc, k, 0)..TextOffset(doc, k, |doc[k].text|)] == doc[k].text
  {
    LeafSplit(doc, k);
    var X := AllText(doc[..k]);
    SliceRight(X, doc[k].text + AllText(doc[k + 1..]), |X|, |X| + |doc[k].text|);
  }
}

=== FILE: edits.dfy ===
/** The edits made to a highlight after it exists: replacing its span by
    the span's text, inserting and removing its comment label, and changing
    its colour. */
module Edits {
  import opened Basics
  import opened Dom
  import opened TextIndex
  import opened Decoration

  // ----- finding a span -----

  /** The first leaf at or after `from` inside the span of `id`
      (`querySelector` in document order). */
  function FirstOf(doc: Doc, id: string, from: nat): (r: Option<nat>)
    requires from <= |doc|
    ensures r.Some? ==> from <= r.value < |doc| && doc[r.value].InSpan(id)
    ensures r.Some? ==> forall j :: from <= j < r.value ==> !doc[j].InSpan(id)
    ensures r.None? ==> forall j :: from <= j < |doc| ==> !doc[j].InSpan(id)
    decreases |doc| - from
  {
    if from == |doc| then None
    else if doc[from].InSpan(id) then Some(from)
    else FirstOf(doc, id, from + 1)
  }

  /** The last leaf before `upto` inside the span of `id`. */
  function LastOf(doc: Doc, id: string, upto: nat): (r: Option<nat>)
    requires upto <= |doc|
    ensures r.Some? ==> r.value < upto && doc[r.value].InSpan(id)
    ensures r.Some? ==> forall j :: r.value < j < upto ==> !doc[j].InSpan(id)
    ensures r.None? ==> forall j :: 0 <= j < upto ==> !doc[j].InSpan(id)
  {
    if upto == 0 then None
    else if doc[upto - 1].InSpan(id) then Some(upto - 1)
    else LastOf(doc, id, upto - 1)
  }

  /** Leaf selector for the text inside the highlight span of `id`. */
  function InSpanOf(id: string): Leaf -> bool {
    (l: Leaf) => l.InSpan(id)
  }

  /** Leaf selector for the text outside the comment label of `id`. */
  function OutsideCommentOf(id: string): Leaf -> bool {
    (l: Leaf) => !l.InComment(id)
  }

  /** The leaves of `id`'s span are exactly those from `a` to `b`: the
      span is one element whose text nodes are consecutive. */
  ghost predicate SpanRun(doc: Doc, id: string, a: nat, b: nat) {
    && a <= b < |doc|
    && forall k :: 0 <= k < |doc| ==> (doc[k].InSpan(id) <==> a <= k <= b)
  }

  /** Every element above a leaf of `d` is above some leaf of `doc`: an
      edit that only removes or merges nodes. */
  ghost predicate NoNewElements(d: Doc, doc: Doc) {
    forall k, j :: 0 <= k < |d| && 0 <= j < |d[k].ancestors| ==> Present(d[k].ancestors[j], doc)
  }

  /** Element `x` is above some leaf of `doc`. */
  ghost predicate Present(x: Element, doc: Doc) {
    exists i :: 0 <= i < |doc| && x in doc[i].ancestors
  }

  /** An id no element of `doc` carries is carried by no element after an
      edit that adds none. */
  lemma UnusedStaysUnused(d: Doc, doc: Doc, id: string)
    requires NoNewElements(d, doc) && IdUnused(doc, id)
    ensures IdUnused(d, id)
  {
    forall k | 0 <= k < |d|
      ensures !d[k].InSpan(id) && !d[k].InComment(id)
    {
      forall j | 0 <= j < |d[k].ancestors|
        ensures !d[k].ancestors[j].IsSpanOf(id) && !d[k].ancestors[j].IsCommentOf(id)
      {
        assert Present(d[k].ancestors[j], doc);
        var i :| 0 <= i < |doc| && d[k].ancestors[j] in doc[i].ancestors;
        var t :| 0 <= t < |doc[i].ancestors| && doc[i].ancestors[t] == d[k].ancestors[j];
        assert !doc[i].InSpan(id) && !doc[i].InComment(id);
      }
    }
  }

  // ----- removing a span -----

  /** The span-removal step of `removeHighlight`: when the span is in the
      document, it is replaced by one text node holding its text content,
      under the span's own parent. Adjacent text nodes are not merged. */
  function Unwrap(doc: Doc, id: string): (d: Doc)
    ensures AllText(d) == AllText(doc)
    ensures !SpanAttached(d, id)
    ensures !SpanAttached(doc, id) ==> d == doc
    ensures forall a: nat, b: nat :: SpanRun(doc, id, a, b) ==>
              d == Splice(doc, a, b, [Leaf(SpanText(doc, id), Above(doc[a].ancestors, id))])
  {
    match FirstOf(doc, id, 0)
    case None =>
      NoRun(doc, id);
      doc
    case Some(a) =>
      var b := LastOf(doc, id, |doc|).value;
      var x := Leaf(AllText(doc[a..b + 1]), Above(doc[a].ancestors, id));
      UnwrapKeepsText(doc, a, b, x);
      UnwrapDetaches(doc, id, a, b, x);
      RunIsFound(doc, id, a, b, x);
      Splice(doc, a, b, [x])
  }

  /** Without a leaf in the span there is no run of it. */
  lemma NoRun(doc: Doc, id: string)
    requires FirstOf(doc, id, 0).None?
    ensures forall a: nat, b: nat :: !SpanRun(doc, id, a, b)
  {
    forall a: nat, b: nat | SpanRun(doc, id, a, b)
      ensures false
    {
      RunStart(doc, id, a, b);
    }
  }

  lemma RunStart(doc: Doc, id: string, a: nat, b: nat)
    requires SpanRun(doc, id, a, b)
    ensures a < |doc| && doc[a].InSpan(id)
  {
  }

  /** Every run of the span runs between the first and the last leaf the
      searches find, and holds the span's text. */
  lemma RunIsFound(doc: Doc, id: string, a: nat, b: nat, x: Leaf)
    requires FirstOf(doc, id, 0) == Some(a) && LastOf(doc, id, |doc|) == Some(b)
    requires x == Leaf(AllText(doc[a..b + 1]), Above(doc[a].ancestors, id))
    ensures forall a': nat, b': nat :: SpanRun(doc, id, a', b') ==>
              Splice(doc, a, b, [x]) == Splice(doc, a', b', [Leaf(SpanText(doc, id), Above(doc[a'].ancestors, id))])
  {
    forall a': nat, b': nat | SpanRun(doc, id, a', b')
      ensures Splice(doc, a, b, [x]) == Splice(doc, a', b', [Leaf(SpanText(doc, id), Above(doc[a'].ancestors, id))])
    {
      RunEnds(doc, id, a', b');
      RunText(doc, id, a', b');
    }
  }

  /** Removing a span only merges text nodes under elements that were
      already there. */
  lemma UnwrapAddsNoElement(doc: Doc, id: string)
    ensures NoNewElements(Unwrap(doc, id), doc)
  {
    match FirstOf(doc, id, 0)
    case None =>
      NoneNew(doc);
    case Some(a) =>
      var b := LastOf(doc, id, |doc|).value;
      var x := Leaf(AllText(doc[a..b + 1]), Above(doc[a].ancestors, id));
      UnwrapIs(doc, id, a);
      UnwrapAddsNothing(doc, a, b, x);
  }

  /** The value of `Unwrap` when a leaf of the span is found. */
  lemma UnwrapIs(doc: Doc, id: string, a: nat)
    requires FirstOf(doc, id, 0) == Some(a)
    ensures var b := LastOf(doc, id, |doc|).value;
            Unwrap(doc, id) == Splice(doc, a, b, [Leaf(AllText(doc[a..b + 1]), Above(doc[a].ancestors, id))])
  {
  }

  lemma NoneNew(doc: Doc)
    ensures NoNewElements(doc, doc)
  {
    forall k, j | 0 <= k < |doc| && 0 <= j < |doc[k].ancestors|
      ensures Present(doc[k].ancestors[j], doc)
    {
      assert doc[k].ancestors[j] in doc[k].ancestors;
    }
  }

  /** The merged text node sits under part of the chain of the span's
      first leaf. */
  lemma UnwrapAddsNothing(doc: Doc, a: nat, b: nat, x: Leaf)
    requires a <= b < |doc|
    requires |x.ancestors| <= |doc[a].ancestors|
    requires x.ancestors == doc[a].ancestors[|doc[a].ancestors| - |x.ancestors|..]
    ensures NoNewElements(Splice(doc, a, b, [x]), doc)
  {
    var pre, post := doc[..a], doc[b + 1..];
    var d := pre + [x] + post;
    assert Splice(doc, a, b, [x]) == d;
    forall k, j | 0 <= k < |d| && 0 <= j < |d[k].ancestors|
      ensures Present(d[k].ancestors[j], doc)
    {
      if k < a {
        assert d[k] == doc[k];
        assert d[k].ancestors[j] in doc[k].ancestors;
      } else if k == a {
        var n := |doc[a].ancestors| - |x.ancestors|;
        assert x.ancestors[j] == doc[a].ancestors[n + j];
        assert d[k].ancestors[j] in doc[a].ancestors;
      } else {
        assert d[k] == doc[b + k - a];
        assert d[k].ancestors[j] in doc[b + k - a].ancestors;
      }
    }
  }

  lemma UnwrapKeepsText(doc: Doc, a: nat, b: nat, x: Leaf)
    requires a <= b < |doc|
    requires x.text == AllText(doc[a..b + 1])
    ensures AllText(Splice(doc, a, b, [x])) == AllText(doc)
  {
    SpliceGather(doc, a, b, [x], _ => true);
    GatherOne(x, _ => true);
    SplitAround(doc, a, b);
  }

  lemma UnwrapDetaches(doc: Doc, id: string, a: nat, b: nat, x: Leaf)
    requires a <= b < |doc|
    requires forall j :: 0 <= j < a ==> !doc[j].InSpan(id)
    requires forall j :: b < j < |doc| ==> !doc[j].InSpan(id)
    requires SpanFree(x.ancestors, id)
    ensures !SpanAttached(Splice(doc, a, b, [x]), id)
  {
    var pre, post := doc[..a], doc[b + 1..];
    var d := pre + [x] + post;
    assert Splice(doc, a, b, [x]) == d;
    forall k | 0 <= k < |d|
      ensures !d[k].InSpan(id)
    {
      if k < a {
        assert d[k] == pre[k] == doc[k];
      } else if k > a {
        assert d[k] == post[k - a - 1] == doc[b + k - a];
      }
    }
  }

  /** When the span's leaves are consecutive, the text node that replaces
      it holds the span's text. */
  lemma UnwrapRun(doc: Doc, id: string, a: nat, b: nat)
    requires SpanRun(doc, id, a, b)
    ensures Unwrap(doc, id) == Splice(doc, a, b, [Leaf(SpanText(doc, id), Above(doc[a].ancestors, id))])
  {
    RunEnds(doc, id, a, b);
    UnwrapIs(doc, id, a);
    RunText(doc, id, a, b);
  }

  /** The first and the last leaf of a run are where the search from
      either end stops. */
  lemma RunEnds(doc: Doc, id: string, a: nat, b: nat)
    requires SpanRun(doc, id, a, b)
    ensures FirstOf(doc, id, 0) == Some(a) && LastOf(doc, id, |doc|) == Some(b)
  {
    var f := FirstOf(doc, id, 0);
    assert f == Some(a) by {
      assert doc[a].InSpan(id);
    }
    var l := LastOf(doc, id, |doc|);
    assert l == Some(b) by {
      assert doc[b].InSpan(id);
      assert l.Some? && l.value <= b;
    }
  }

  /** The text of a run is the span's text. */
  lemma RunText(doc: Doc, id: string, a: nat, b: nat)
    requires SpanRun(doc, id, a, b)
    ensures AllText(doc[a..b + 1]) == SpanText(doc, id)
  {
    var pre, run, post := doc[..a], doc[a..b + 1], doc[b + 1..];
    assert doc == pre + run + post;
    assert forall k :: 0 <= k < |pre| ==> !pre[k].InSpan(id) by {
      forall k | 0 <= k < |pre|
        ensures !pre[k].InSpan(id)
      {
        assert pre[k] == doc[k];
      }
    }
    assert forall k :: 0 <= k < |run| ==> run[k].InSpan(id) by {
      forall k | 0 <= k < |run|
        ensures run[k].InSpan(id)
      {
        assert run[k] == doc[a + k];
      }
    }
    assert forall k :: 0 <= k < |post| ==> !post[k].InSpan(id) by {
      forall k | 0 <= k < |post|
        ensures !post[k].InSpan(id)
      {
        assert post[k] == doc[b + 1 + k];
      }
    }
    SpanTextOfRun(pre, run, post, id);
  }

  /** Leaves all inside the span between leaves all outside it: the span's
      text is the text of the middle. */
  lemma SpanTextOfRun(pre: seq<Leaf>, run: seq<Leaf>, post: seq<Leaf>, id: string)
    requires forall k :: 0 <= k < |pre| ==> !pre[k].InSpan(id)
    requires forall k :: 0 <= k < |run| ==> run[k].InSpan(id)
    requires forall k :: 0 <= k < |post| ==> !post[k].InSpan(id)
    ensures SpanText(pre + run + post, id) == AllText(run)
  {
    var keep := (l: Leaf) => l.InSpan(id);
    GatherAppend(pre + run, post, keep);
    GatherAppend(pre, run, keep);
    GatherNone(pre, keep);
    GatherNone(post, keep);
    GatherCongruent(run, run, _ => true, keep);
  }

  // ----- create, then remove -----

  /** The chain of the text node left behind when a fresh highlight is
      removed: the parent of the wrapped text for `surroundContents`, the
      common parent for the fallback. */
  function RestoredChain(doc: Doc, r: Range): seq<Element>
    requires ValidRange(doc, r)
  {
    var A, B := doc[r.startLeaf].ancestors, doc[r.endLeaf].ancestors;
    if r.startLeaf == r.endLeaf || Surroundable(doc, r) then A else CommonChain(A, B)
  }

  /** Removing the outermost span of a chain that is below a span-free
      chain gives that chain back. */
  lemma {:induction false} AboveSpan(x: Element, A: seq<Element>, id: string)
    requires x.IsSpanOf(id) && SpanFree(A, id)
    ensures Above([x] + A, id) == A
    decreases |A|
  {
    if |A| > 0 {
      var n := |A| - 1;
      assert ([x] + A)[..|A|] == [x] + A[..n];
      assert SpanFree(A[..n], id) by {
        forall j | 0 <= j < n
          ensures !A[..n][j].IsSpanOf(id)
        {
          assert A[..n][j] == A[j];
        }
      }
      AboveSpan(x, A[..n], id);
      assert A == A[..n] + [A[n]];
    }
  }

  /** For a fresh id, the span's leaves are the block minus its two
      unselected outer pieces. */
  lemma WrapRun(doc: Doc, r: Range, span: Element)
    requires ValidRange(doc, r) && span.HighlightSpan? && IdUnused(doc, span.id)
    ensures var block := WrapBlock(doc, r, span);
            SpanRun(Splice(doc, r.startLeaf, r.endLeaf, block), span.id, r.startLeaf + 1, r.startLeaf + |block| - 2)
  {
    BlockRun(doc, r, span);
    SpliceRun(doc, r.startLeaf, r.endLeaf, WrapBlock(doc, r, span), span.id);
  }

  /** A block whose inner pieces, and only those, are in the span, spliced
      into a document without the span, makes the span one run. */
  lemma SpliceRun(doc: Doc, s: nat, e: nat, block: seq<Leaf>, id: string)
    requires s <= e < |doc| && |block| >= 3 && !SpanAttached(doc, id)
    requires forall k :: 0 <= k < |block| ==> (block[k].InSpan(id) <==> 0 < k < |block| - 1)
    ensures SpanRun(Splice(doc, s, e, block), id, s + 1, s + |block| - 2)
  {
    var d := Splice(doc, s, e, block);
    forall k | 0 <= k < |d|
      ensures d[k].InSpan(id) <==> s + 1 <= k <= s + |block| - 2
    {
      if k < s {
        assert d[k] == doc[k];
      } else if k < s + |block| {
        assert d[k] == block[k - s];
      } else {
        assert d[k] == doc[k - s - |block| + e + 1];
      }
    }
  }

  /** Inside the block, exactly the pieces between the outer two are in the
      span. */
  lemma BlockRun(doc: Doc, r: Range, span: Element)
    requires ValidRange(doc, r) && span.HighlightSpan? && IdUnused(doc, span.id)
    ensures var block := WrapBlock(doc, r, span);
            && |block| >= 3
            && forall k :: 0 <= k < |block| ==> (block[k].InSpan(span.id) <==> 0 < k < |block| - 1)
  {
    var id := span.id;
    var s, e := r.startLeaf, r.endLeaf;
    var block := WrapBlock(doc, r, span);
    assert !doc[s].InSpan(id) && !doc[e].InSpan(id);
    forall k | 0 <= k < |block|
      ensures block[k].InSpan(id) <==> 0 < k < |block| - 1
    {
      if k == 0 || k == |block| - 1 {
        assert block[k].ancestors == doc[s].ancestors || block[k].ancestors == doc[e].ancestors;
      } else if s < e && Surroundable(doc, r) && 2 <= k < |block| - 2 {
        var adopted := AdoptAll(doc[s + 1..e], doc[s].ancestors, span);
        assert block[k] == adopted[k - 2];
        assert span in block[k].ancestors;
      } else {
        assert block[k].ancestors[0] == span;
      }
    }
  }

  /** The piece of the block right after the unselected start piece sits
      below the span, which sits directly below the restored chain. */
  lemma FirstInSpan(doc: Doc, r: Range, span: Element)
    requires ValidRange(doc, r) && span.HighlightSpan? && IdUnused(doc, span.id)
    ensures var block := WrapBlock(doc, r, span);
            |block| >= 3 && Above(block[1].ancestors, span.id) == RestoredChain(doc, r)
  {
    var R := RestoredChain(doc, r);
    var block := WrapBlock(doc, r, span);
    FirstPiece(doc, r, span);
    assert SpanFree(R, span.id) by {
      RestoredFree(doc, r, span.id);
    }
    AboveSpan(span, R, span.id);
  }

  /** The piece after the unselected start piece hangs directly below the
      span, which hangs below the restored chain. */
  lemma FirstPiece(doc: Doc, r: Range, span: Element)
    requires ValidRange(doc, r)
    ensures var block := WrapBlock(doc, r, span);
            |block| >= 3 && block[1].ancestors == [span] + RestoredChain(doc, r)
  {
  }

  /** A chain restored from a leaf outside the span is free of it. */
  lemma RestoredFree(doc: Doc, r: Range, id: string)
    requires ValidRange(doc, r) && !doc[r.startLeaf].InSpan(id)
    ensures SpanFree(RestoredChain(doc, r), id)
  {
    var A := doc[r.startLeaf].ancestors;
    var R := RestoredChain(doc, r);
    assert SpanFree(A, id);
    assert R == A[|A| - |R|..];
    forall j | 0 <= j < |R|
      ensures !R[j].IsSpanOf(id)
    {
      assert R[j] == A[|A| - |R| + j];
    }
  }

  /** Replacing the inner pieces of a spliced block again is one splice
      of the outer pieces around the new middle. */
  lemma SpliceTwice(doc: Doc, s: nat, e: nat, block: seq<Leaf>, m: Leaf)
    requires s <= e < |doc| && |block| >= 3
    ensures Splice(Splice(doc, s, e, block), s + 1, s + |block| - 2, [m])
            == Splice(doc, s, e, [block[0], m, block[|block| - 1]])
  {
    var d := Splice(doc, s, e, block);
    var a, b := s + 1, s + |block| - 2;
    assert d[..a] == doc[..s] + [block[0]];
    assert d[b + 1..] == [block[|block| - 1]] + doc[e + 1..];
  }

  /** Removing the span of a fresh id right after wrapping replaces the
      span's pieces by one text node holding the range's text. */
  lemma UnwrapWrapped(doc: Doc, r: Range, span: Element)
    requires ValidRange(doc, r) && span.HighlightSpan? && IdUnused(doc, span.id)
    ensures var block := WrapBlock(doc, r, span);
            var d := Splice(doc, r.startLeaf, r.endLeaf, block);
            Unwrap(d, span.id)
            == Splice(d, r.startLeaf + 1, r.startLeaf + |block| - 2, [Leaf(RangeText(doc, r), RestoredChain(doc, r))])
  {
    var block := WrapBlock(doc, r, span);
    var d := Splice(doc, r.startLeaf, r.endLeaf, block);
    WrappedRun(doc, r, span);
    UnwrapRunAs(d, span.id, r.startLeaf + 1, r.startLeaf + |block| - 2, RangeText(doc, r), RestoredChain(doc, r));
  }

  /** Right after wrapping, the span of a fresh id is one run of leaves
      holding the range's text, the first of them under the restored
      chain. */
  lemma WrappedRun(doc: Doc, r: Range, span: Element)
    requires ValidRange(doc, r) && span.HighlightSpan? && IdUnused(doc, span.id)
    ensures var block := WrapBlock(doc, r, span);
            var d := Splice(doc, r.startLeaf, r.endLeaf, block);
            var a, b := r.startLeaf + 1, r.startLeaf + |block| - 2;
            && SpanRun(d, span.id, a, b)
            && SpanText(d, span.id) == RangeText(doc, r)
            && Above(d[a].ancestors, span.id) == RestoredChain(doc, r)
  {
    var id := span.id;
    var block := WrapBlock(doc, r, span);
    var d := Splice(doc, r.startLeaf, r.endLeaf, block);
    var a := r.startLeaf + 1;
    WrapRun(doc, r, span);
    WrapSpanText(doc, r, span);
    assert Above(d[a].ancestors, id) == RestoredChain(doc, r) by {
      FirstInSpan(doc, r, span);
      assert d[a] == block[1];
    }
  }

  /** `UnwrapRun` with the joined leaf's text and chain named. */
  lemma UnwrapRunAs(doc: Doc, id: string, a: nat, b: nat, t: string, chain: seq<Element>)
    requires SpanRun(doc, id, a, b) && SpanText(doc, id) == t && Above(doc[a].ancestors, id) == chain
    ensures Unwrap(doc, id) == Splice(doc, a, b, [Leaf(t, chain)])
  {
    UnwrapRun(doc, id, a, b);
  }

  /** Creating a highlight with a fresh id and then removing it leaves the
      page as it was, except that the selected text is now a text node of
      its own, between the unselected parts of the boundary nodes. */
  lemma CreateThenRemove(doc: Doc, r: Range, id: string, color: string)
    requires ValidRange(doc, r) && IdUnused(doc, id)
    ensures var s, e := r.startLeaf, r.endLeaf;
            Unwrap(Wrap(doc, r, id, color), id)
            == Splice(doc, s, e, [Leaf(doc[s].text[..r.startOffset], doc[s].ancestors),
                                  Leaf(RangeText(doc, r), RestoredChain(doc, r)),
                                  Leaf(doc[e].text[r.endOffset..], doc[e].ancestors)])
  {
    var s, e := r.startLeaf, r.endLeaf;
    var span := HighlightSpan(id, color);
    var block := WrapBlock(doc, r, span);
    var d := Wrap(doc, r, id, color);
    var m := Leaf(RangeText(doc, r), RestoredChain(doc, r));
    var first := Leaf(doc[s].text[..r.startOffset], doc[s].ancestors);
    var last := Leaf(doc[e].text[r.endOffset..], doc[e].ancestors);
    WrapIs(doc, r, id, color);
    UnwrapWrapped(doc, r, span);
    BlockEnds(doc, r, span);
    SpliceTwiceAs(doc, s, e, block, m, first, last, d, Unwrap(d, id));
  }

  /** `SpliceTwice` with the outer pieces and both results named. */
  lemma SpliceTwiceAs(doc: Doc, s: nat, e: nat, block: seq<Leaf>, m: Leaf, first: Leaf, last: Leaf, d: Doc, u: Doc)
    requires s <= e < |doc| && |block| >= 3 && block[0] == first && block[|block| - 1] == last
    requires d == Splice(doc, s, e, block) && u == Splice(d, s + 1, s + |block| - 2, [m])
    ensures u == Splice(doc, s, e, [first, m, last])
  {
    SpliceTwice(doc, s, e, block, m);
  }

  lemma WrapIs(doc: Doc, r: Range, id: string, color: string)
    requires ValidRange(doc, r)
    ensures Wrap(doc, r, id, color) == Splice(doc, r.startLeaf, r.endLeaf, WrapBlock(doc, r, HighlightSpan(id, color)))
  {
  }

  /** The outer pieces of the block are the unselected parts of the
      boundary text nodes, where they were. */
  lemma BlockEnds(doc: Doc, r: Range, span: Element)
    requires ValidRange(doc, r)
    ensures var block := WrapBlock(doc, r, span);
            && |block| >= 3
            && block[0] == Leaf(doc[r.startLeaf].text[..r.startOffset], doc[r.startLeaf].ancestors)
            && block[|block| - 1] == Leaf(doc[r.endLeaf].text[r.endOffset..], doc[r.endLeaf].ancestors)
  {
  }

  // ----- comment labels -----

  /** `createCommentSpan`: when the span is in the document, a label
      `(comment)` is inserted right after it, as its next sibling. */
  function InsertComment(doc: Doc, id: string, comment: string): (d: Doc)
    ensures !SpanAttached(doc, id) ==> d == doc
    ensures SpanAttached(doc, id) ==> CommentAttached(d, id) && SpanAttached(d, id) && |d| == |doc| + 1
    ensures SpanAttached(doc, id) ==> LastOf(doc, id, |doc|).Some?
    ensures SpanAttached(doc, id) ==>
              var l := LastOf(doc, id, |doc|).value;
              && d[..l + 1] == doc[..l + 1] && d[l + 2..] == doc[l + 1..]
              && d[l + 1].text == "(" + comment + ")"
              && d[l + 1].ancestors == [CommentSpan(id)] + Above(doc[l].ancestors, id)
    ensures IndexedText(d) == IndexedText(doc)
    ensures SpanText(d, id) == SpanText(doc, id)
  {
    match LastOf(doc, id, |doc|)
    case None => doc
    case Some(l) =>
      var note := Label(doc, id, comment, l);
      var d := doc[..l + 1] + [note] + doc[l + 1..];
      InsertedAt(doc, l + 1, note);
      assert d[l] == doc[l];
      LabelHidden(doc, id, comment, l);
      assert doc == doc[..l + 1] + doc[l + 1..];
      InsertedUnseen(doc[..l + 1], note, doc[l + 1..], (x: Leaf) => x.Indexed());
      InsertedUnseen(doc[..l + 1], note, doc[l + 1..], InSpanOf(id));
      d
  }

  /** Inserting `x` at position `i` keeps the leaves on both sides. */
  lemma InsertedAt(doc: Doc, i: nat, x: Leaf)
    requires i <= |doc|
    ensures var d := doc[..i] + [x] + doc[i..];
            && |d| == |doc| + 1 && d[i] == x
            && d[..i] == doc[..i] && d[i + 1..] == doc[i..]
  {
    var d := doc[..i] + [x] + doc[i..];
    assert d[i + 1..] == doc[i..];
  }

  /** The label's text node: `(comment)`, inside the comment span, which is
      a sibling of the highlight span. */
  function Label(doc: Doc, id: string, comment: string, l: nat): (x: Leaf)
    requires l < |doc|
    ensures x.InComment(id)
  {
    var x := Leaf("(" + comment + ")", [CommentSpan(id)] + Above(doc[l].ancestors, id));
    assert x.ancestors[0].IsCommentOf(id);
    x
  }

  /** The walker skips the label, and it is outside the highlight span. */
  lemma LabelHidden(doc: Doc, id: string, comment: string, l: nat)
    requires l < |doc|
    ensures !Label(doc, id, comment, l).Indexed()
    ensures !Label(doc, id, comment, l).InSpan(id)
  {
    var x := Label(doc, id, comment, l);
    var A := Above(doc[l].ancestors, id);
    assert x.ancestors == [CommentSpan(id)] + A;
    forall j | 0 <= j < |x.ancestors|
      ensures !x.ancestors[j].IsSpanOf(id)
    {
      if j > 0 {
        assert x.ancestors[j] == A[j - 1];
      }
    }
  }

  /** Inserting a leaf that is not kept leaves the gathering unchanged. */
  lemma InsertedUnseen(a: seq<Leaf>, x: Leaf, b: seq<Leaf>, keep: Leaf -> bool)
    requires !keep(x)
    ensures Gather(a + [x] + b, keep) == Gather(a + b, keep)
  {
    GatherAppend(a + [x], b, keep);
    GatherAppend(a, [x], keep);
    GatherOne(x, keep);
    GatherAppend(a, b, keep);
  }

  /** The document without the leaves of `id`'s comment label. */
  function Without(doc: Doc, id: string): (d: Doc)
    ensures |d| <= |doc|
    ensures forall k :: 0 <= k < |d| ==> !d[k].InComment(id)
    ensures forall x :: x in d ==> x in doc
  {
    if |doc| == 0 then []
    else (if doc[0].InComment(id) then [] else [doc[0]]) + Without(doc[1..], id)
  }

  /** Filtering out the label keeps every other text node, and the text
      that remains is the document's text outside the label, in order. */
  lemma WithoutKeeps(doc: Doc, id: string)
    ensures forall x :: x in doc && !x.InComment(id) ==> x in Without(doc, id)
    ensures AllText(Without(doc, id)) == Gather(doc, OutsideCommentOf(id))
  {
    WithoutKeepsLeaves(doc, id);
    WithoutKeepsText(doc, id);
  }

  lemma {:induction false} WithoutKeepsLeaves(doc: Doc, id: string)
    ensures forall x :: x in doc && !x.InComment(id) ==> x in Without(doc, id)
    decreases |doc|
  {
    if |doc| > 0 {
      var tail := doc[1..];
      WithoutKeepsLeaves(tail, id);
      forall x | x in doc && !x.InComment(id)
        ensures x in Without(doc, id)
      {
        if x != doc[0] {
          var k :| 0 <= k < |doc| && doc[k] == x;
          assert x == tail[k - 1];
        }
      }
    }
  }

  lemma {:induction false} WithoutKeepsText(doc: Doc, id: string)
    ensures AllText(Without(doc, id)) == Gather(doc, OutsideCommentOf(id))
    decreases |doc|
  {
    if |doc| > 0 {
      var x, tail := doc[0], doc[1..];
      WithoutKeepsText(tail, id);
      assert Gather(doc, OutsideCommentOf(id)) == Part(x, OutsideCommentOf(id)) + Gather(tail, OutsideCommentOf(id));
      if x.InComment(id) {
        assert Without(doc, id) == Without(tail, id);
        assert Part(x, OutsideCommentOf(id)) == "";
      } else {
        assert Without(doc, id) == [x] + Without(tail, id);
        GatherAppend([x], Without(tail, id), _ => true);
        assert AllText([x]) == x.text by {
          assert [x][1..] == [];
        }
      }
    }
  }

  /** `removeCommentSpan`: takes the label of `id` out of the document.
      Every other text node stays, in document order. */
  function RemoveComment(doc: Doc, id: string): (d: Doc)
    ensures !CommentAttached(d, id)
    ensures !CommentAttached(doc, id) ==> d == doc
    ensures forall x :: x in d <==> x in doc && !x.InComment(id)
    ensures AllText(d) == Gather(doc, OutsideCommentOf(id))
  {
    WithoutKeeps(doc, id);
    if CommentAttached(doc, id) then Without(doc, id)
    else
      WithoutNothing(doc, id);
      doc
  }

  /** Removing the label only drops text nodes. */
  lemma RemoveCommentAddsNoElement(doc: Doc, id: string)
    ensures NoNewElements(RemoveComment(doc, id), doc)
  {
    if CommentAttached(doc, id) {
      SubsetAddsNothing(Without(doc, id), doc);
    } else {
      NoneNew(doc);
    }
  }

  /** Dropping leaves adds no element. */
  lemma SubsetAddsNothing(d: Doc, doc: Doc)
    requires forall x :: x in d ==> x in doc
    ensures NoNewElements(d, doc)
  {
    forall k, j | 0 <= k < |d| && 0 <= j < |d[k].ancestors|
      ensures Present(d[k].ancestors[j], doc)
    {
      assert d[k] in d;
      var i :| 0 <= i < |doc| && doc[i] == d[k];
      assert d[k].ancestors[j] in doc[i].ancestors;
    }
  }

  lemma {:induction false} WithoutAppend(a: Doc, b: Doc, id: string)
    ensures Without(a + b, id) == Without(a, id) + Without(b, id)
    decreases |a|
  {
    if |a| == 0 {
      assert a + b == b;
    } else {
      assert (a + b)[0] == a[0];
      assert (a + b)[1..] == a[1..] + b;
      WithoutAppend(a[1..], b, id);
    }
  }

  lemma {:induction false} WithoutNothing(doc: Doc, id: string)
    requires !CommentAttached(doc, id)
    ensures Without(doc, id) == doc
    decreases |doc|
  {
    if |doc| > 0 {
      assert !CommentAttached(doc[1..], id) by {
        forall k | 0 <= k < |doc[1..]|
          ensures !doc[1..][k].InComment(id)
        {
          assert doc[1..][k] == doc[k + 1];
        }
      }
      WithoutNothing(doc[1..], id);
      assert !doc[0].InComment(id);
    }
  }

  /** Filtering out a label between two label-free stretches leaves the
      two stretches. */
  lemma WithoutOne(pre: Doc, x: Leaf, post: Doc, id: string)
    requires !CommentAttached(pre, id) && !CommentAttached(post, id) && x.InComment(id)
    ensures Without(pre + [x] + post, id) == pre + post
  {
    WithoutAppend(pre + [x], post, id);
    WithoutAppend(pre, [x], id);
    assert Without([x], id) == [] by {
      assert [x][1..] == [];
    }
    WithoutNothing(pre, id);
    WithoutNothing(post, id);
  }

  /** The label goes right after the span's last text node. */
  lemma InsertCommentIs(doc: Doc, id: string, comment: string, l: nat)
    requires SpanAttached(doc, id) && LastOf(doc, id, |doc|) == Some(l)
    ensures InsertComment(doc, id, comment) == doc[..l + 1] + [Label(doc, id, comment, l)] + doc[l + 1..]
  {
  }

  /** Removing the label that `InsertComment` put into a document without
      one gives the document back. */
  lemma CommentRoundTrip(doc: Doc, id: string, comment: string)
    requires !CommentAttached(doc, id)
    ensures RemoveComment(InsertComment(doc, id, comment), id) == doc
  {
    if SpanAttached(doc, id) {
      var l := LastOf(doc, id, |doc|).value;
      var note := Label(doc, id, comment, l);
      var pre, post := doc[..l + 1], doc[l + 1..];
      assert InsertComment(doc, id, comment) == pre + [note] + post by {
        InsertCommentIs(doc, id, comment, l);
      }
      assert RemoveComment(pre + [note] + post, id) == doc by {
        LabelFreeParts(doc, l + 1, id);
        RemoveInserted(pre, note, post, id);
        assert pre + post == doc;
      }
    }
  }

  /** Both sides of a cut of a label-free document are label-free. */
  lemma LabelFreeParts(doc: Doc, i: nat, id: string)
    requires i <= |doc| && !CommentAttached(doc, id)
    ensures !CommentAttached(doc[..i], id) && !CommentAttached(doc[i..], id)
  {
    var pre, post := doc[..i], doc[i..];
    forall k | 0 <= k < |pre|
      ensures !pre[k].InComment(id)
    {
      assert pre[k] == doc[k];
    }
    forall k | 0 <= k < |post|
      ensures !post[k].InComment(id)
    {
      assert post[k] == doc[i + k];
    }
  }

  /** Removing the one label leaf between two label-free stretches leaves
      the two stretches. */
  lemma RemoveInserted(pre: Doc, x: Leaf, post: Doc, id: string)
    requires !CommentAttached(pre, id) && !CommentAttached(post, id) && x.InComment(id)
    ensures RemoveComment(pre + [x] + post, id) == pre + post
  {
    var d := pre + [x] + post;
    assert d[|pre|] == x;
    WithoutOne(pre, x, post, id);
  }

  /** The label's text nodes are not indexed, so removing them does not
      change what the resolver searches. */
  lemma {:induction false} WithoutKeepsIndex(doc: Doc, id: string)
    requires forall k :: 0 <= k < |doc| && doc[k].InComment(id) ==> !doc[k].Indexed()
    ensures IndexedText(Without(doc, id)) == IndexedText(doc)
    decreases |doc|
  {
    if |doc| > 0 {
      var rest := doc[1..];
      assert forall k :: 0 <= k < |rest| && rest[k].InComment(id) ==> !rest[k].Indexed() by {
        forall k | 0 <= k < |rest| && rest[k].InComment(id)
          ensures !rest[k].Indexed()
        {
          assert rest[k] == doc[k + 1];
        }
      }
      WithoutKeepsIndex(rest, id);
      var head := if doc[0].InComment(id) then [] else [doc[0]];
      GatherAppend(head, Without(rest, id), (l: Leaf) => l.Indexed());
      GatherOne(doc[0], (l: Leaf) => l.Indexed());
    }
  }

  // ----- colour -----

  /** The element with the span of `id` given colour `color`. */
  function Repaint(x: Element, id: string, color: string): Element {
    if x.IsSpanOf(id) then HighlightSpan(id, color) else x
  }

  /** `changeHighlightColor`'s DOM step: the span of `id` takes background
      `color`; no other element and no text changes. */
  function Recolor(doc: Doc, id: string, color: string): (d: Doc)
    ensures |d| == |doc|
    ensures forall k :: 0 <= k < |d| ==> d[k].text == doc[k].text && |d[k].ancestors| == |doc[k].ancestors|
    ensures forall k, j :: 0 <= k < |d| && 0 <= j < |d[k].ancestors| && doc[k].ancestors[j].IsSpanOf(id) ==>
              d[k].ancestors[j] == HighlightSpan(id, color)
    ensures forall k, j :: 0 <= k < |d| && 0 <= j < |d[k].ancestors| && !doc[k].ancestors[j].IsSpanOf(id) ==>
              d[k].ancestors[j] == doc[k].ancestors[j]
  {
    seq(|doc|, k requires 0 <= k < |doc| =>
      Leaf(doc[k].text, seq(|doc[k].ancestors|, j requires 0 <= j < |doc[k].ancestors| => Repaint(doc[k].ancestors[j], id, color))))
  }

  /** Repainting keeps every element's tag, classes and identity, so the
      walker accepts the same text nodes and every span and note keeps
      its text nodes. */
  lemma RecolorKeepsStructure(doc: Doc, id: string, color: string)
    ensures var d := Recolor(doc, id, color);
            forall k :: 0 <= k < |d| ==>
              && d[k].Indexed() == doc[k].Indexed()
              && (forall other :: d[k].InSpan(other) == doc[k].InSpan(other))
              && (forall other :: d[k].InComment(other) == doc[k].InComment(other))
  {
    var d := Recolor(doc, id, color);
    forall k | 0 <= k < |d|
      ensures d[k].Indexed() == doc[k].Indexed()
      ensures forall other :: d[k].InSpan(other) == doc[k].InSpan(other)
      ensures forall other :: d[k].InComment(other) == doc[k].InComment(other)
    {
      forall other
        ensures d[k].InSpan(other) == doc[k].InSpan(other)
      {
        if doc[k].InSpan(other) {
          var j :| 0 <= j < |doc[k].ancestors| && doc[k].ancestors[j].IsSpanOf(other);
          assert d[k].ancestors[j].IsSpanOf(other);
        }
        if d[k].InSpan(other) {
          var j :| 0 <= j < |d[k].ancestors| && d[k].ancestors[j].IsSpanOf(other);
          assert doc[k].ancestors[j].IsSpanOf(other);
        }
      }
      forall other
        ensures d[k].InComment(other) == doc[k].InComment(other)
      {
        if doc[k].InComment(other) {
          var j :| 0 <= j < |doc[k].ancestors| && doc[k].ancestors[j].IsCommentOf(other);
          assert d[k].ancestors[j].IsCommentOf(other);
        }
        if d[k].InComment(other) {
          var j :| 0 <= j < |d[k].ancestors| && d[k].ancestors[j].IsCommentOf(other);
          assert doc[k].ancestors[j].IsCommentOf(other);
        }
      }
    }
  }

  /** Recolouring changes neither the page text, nor the text the
      resolver searches, nor the text of any span. */
  lemma RecolorKeepsText(doc: Doc, id: string, color: string, other: string)
    ensures AllText(Recolor(doc, id, color)) == AllText(doc)
    ensures IndexedText(Recolor(doc, id, color)) == IndexedText(doc)
    ensures SpanText(Recolor(doc, id, color), other) == SpanText(doc, other)
  {
    var d := Recolor(doc, id, color);
    RecolorKeepsStructure(doc, id, color);
    GatherCongruent(d, doc, _ => true, _ => true);
    GatherCongruent(d, doc, (l: Leaf) => l.Indexed(), (l: Leaf) => l.Indexed());
    GatherCongruent(d, doc, (l: Leaf) => l.InSpan(other), (l: Leaf) => l.InSpan(other));
  }

  /** Of two colour changes, the later one wins. */
  lemma RecolorLastWins(doc: Doc, id: string, c1: string, c2: string)
    ensures Recolor(Recolor(doc, id, c1), id, c2) == Recolor(doc, id, c2)
  {
    var d1 := Recolor(doc, id, c1);
    var d2 := Recolor(d1, id, c2);
    var d := Recolor(doc, id, c2);
    forall k | 0 <= k < |doc|
      ensures d2[k] == d[k]
    {
      forall j | 0 <= j < |doc[k].ancestors|
        ensures d2[k].ancestors[j] == d[k].ancestors[j]
      {
        assert d1[k].ancestors[j].IsSpanOf(id) == doc[k].ancestors[j].IsSpanOf(id);
      }
    }
  }

  // ----- elements an edit adds -----

  /** Element `x` is one of the two spans that carry the id `id`. */
  predicate Owned(x: Element, id: string) {
    x.IsSpanOf(id) || x.IsCommentOf(id)
  }

  /** Every element of `chain` is above some leaf of `doc` or carries `id`. */
  ghost predicate ChainFrom(chain: seq<Element>, doc: Doc, id: string) {
    forall j :: 0 <= j < |chain| ==> Present(chain[j], doc) || Owned(chain[j], id)
  }

  /** Every element above a leaf of `d` was above a leaf of `doc` or
      carries `id`: an edit that adds elements for `id` and no other. */
  ghost predicate AddsOnlyFor(d: Doc, doc: Doc, id: string) {
    forall k :: 0 <= k < |d| ==> ChainFrom(d[k].ancestors, doc, id)
  }

  /** An id other than `id` that no element of `doc` carries is carried by
      no element after an edit that adds elements for `id` only. */
  lemma OthersStayUnused(d: Doc, doc: Doc, id: string, o: string)
    requires AddsOnlyFor(d, doc, id) && IdUnused(doc, o) && o != id
    ensures IdUnused(d, o)
  {
    forall k | 0 <= k < |d|
      ensures !d[k].InSpan(o) && !d[k].InComment(o)
    {
      assert ChainFrom(d[k].ancestors, doc, id);
      forall j | 0 <= j < |d[k].ancestors|
        ensures !d[k].ancestors[j].IsSpanOf(o) && !d[k].ancestors[j].IsCommentOf(o)
      {
        if Present(d[k].ancestors[j], doc) {
          var i :| 0 <= i < |doc| && d[k].ancestors[j] in doc[i].ancestors;
          var t :| 0 <= t < |doc[i].ancestors| && doc[i].ancestors[t] == d[k].ancestors[j];
          assert !doc[i].InSpan(o) && !doc[i].InComment(o);
        }
      }
    }
  }

  lemma NoneIsOnlyFor(d: Doc, doc: Doc, id: string)
    requires NoNewElements(d, doc)
    ensures AddsOnlyFor(d, doc, id)
  {
  }

  lemma OnlyForCompose(a: Doc, b: Doc, c: Doc, id: string)
    requires AddsOnlyFor(a, b, id) && AddsOnlyFor(b, c, id)
    ensures AddsOnlyFor(a, c, id)
  {
    forall k | 0 <= k < |a|
      ensures ChainFrom(a[k].ancestors, c, id)
    {
      assert ChainFrom(a[k].ancestors, b, id);
      forall j | 0 <= j < |a[k].ancestors| && !Owned(a[k].ancestors[j], id)
        ensures Present(a[k].ancestors[j], c)
      {
        var x := a[k].ancestors[j];
        var i :| 0 <= i < |b| && x in b[i].ancestors;
        var t :| 0 <= t < |b[i].ancestors| && b[i].ancestors[t] == x;
        assert ChainFrom(b[i].ancestors, c, id);
      }
    }
  }

  /** A chain of elements above leaf `i` of `doc` and spans of `id`. */
  lemma ChainFromLeaf(c: seq<Element>, doc: Doc, i: nat, id: string)
    requires i < |doc|
    requires forall x :: x in c ==> x in doc[i].ancestors || Owned(x, id)
    ensures ChainFrom(c, doc, id)
  {
    forall j | 0 <= j < |c|
      ensures Present(c[j], doc) || Owned(c[j], id)
    {
      assert c[j] in c;
    }
  }

  /** Every leaf of `block` hangs below elements of `doc` and spans of `id`. */
  ghost predicate BlockFrom(block: seq<Leaf>, doc: Doc, id: string) {
    forall k :: 0 <= k < |block| ==> ChainFrom(block[k].ancestors, doc, id)
  }

  /** Wrapping adds the new span and no other element. */
  lemma WrapAddsOnlySpan(doc: Doc, r: Range, id: string, color: string)
    requires ValidRange(doc, r)
    ensures AddsOnlyFor(Wrap(doc, r, id, color), doc, id)
  {
    var span := HighlightSpan(id, color);
    var block := WrapBlock(doc, r, span);
    WrapIs(doc, r, id, color);
    assert BlockFrom(block, doc, id) by {
      if r.startLeaf == r.endLeaf {
        SplitOneFrom(doc, r, span);
      } else if Surroundable(doc, r) {
        SplitManyFrom(doc, r, span);
      } else {
        RefillFrom(doc, r, span);
      }
    }
    forall k | 0 <= k < |doc|
      ensures ChainFrom(doc[k].ancestors, doc, id)
    {
      ChainFromLeaf(doc[k].ancestors, doc, k, id);
    }
    SpliceAll(doc, r.startLeaf, r.endLeaf, block, (l: Leaf) => ChainFrom(l.ancestors, doc, id));
  }

  lemma SplitOneFrom(doc: Doc, r: Range, span: Element)
    requires ValidRange(doc, r) && r.startLeaf == r.endLeaf && span.HighlightSpan?
    ensures BlockFrom(SplitOne(doc, r, span), doc, span.id)
  {
    var A := doc[r.startLeaf].ancestors;
    ChainFromLeaf(A, doc, r.startLeaf, span.id);
    ChainFromLeaf([span] + A, doc, r.startLeaf, span.id);
  }

  lemma SplitManyFrom(doc: Doc, r: Range, span: Element)
    requires ValidRange(doc, r) && r.startLeaf < r.endLeaf && span.HighlightSpan?
    ensures BlockFrom(SplitMany(doc, r, span), doc, span.id)
  {
    var id := span.id;
    var s, e := r.startLeaf, r.endLeaf;
    var A, B := doc[s].ancestors, doc[e].ancestors;
    var block := SplitMany(doc, r, span);
    var mid := doc[s + 1..e];
    var adopted := AdoptAll(mid, A, span);
    ChainFromLeaf(A, doc, s, id);
    ChainFromLeaf([span] + A, doc, s, id);
    ChainFromLeaf(B, doc, e, id);
    ChainFromLeaf([span] + B, doc, e, id);
    forall k | 2 <= k < |block| - 2
      ensures ChainFrom(block[k].ancestors, doc, id)
    {
      assert block[k] == adopted[k - 2];
      assert mid[k - 2] == doc[s + 1 + (k - 2)];
      ChainFromLeaf(block[k].ancestors, doc, s + 1 + (k - 2), id);
    }
  }

  lemma RefillFrom(doc: Doc, r: Range, span: Element)
    requires ValidRange(doc, r) && span.HighlightSpan?
    ensures BlockFrom(Refill(doc, r, span), doc, span.id)
  {
    var s, e := r.startLeaf, r.endLeaf;
    var A, B := doc[s].ancestors, doc[e].ancestors;
    var C := CommonChain(A, B);
    var x, y, z := Leaf(doc[s].text[..r.startOffset], A), Leaf(RangeText(doc, r), [span] + C), Leaf(doc[e].text[r.endOffset..], B);
    assert Refill(doc, r, span) == [x, y, z];
    CommonInFirst(A, B);
    ChainFromLeaf(A, doc, s, span.id);
    ChainFromLeaf([span] + C, doc, s, span.id);
    ChainFromLeaf(B, doc, e, span.id);
    ThreeFrom(x, y, z, doc, span.id);
  }

  lemma ThreeFrom(x: Leaf, y: Leaf, z: Leaf, doc: Doc, id: string)
    requires ChainFrom(x.ancestors, doc, id) && ChainFrom(y.ancestors, doc, id) && ChainFrom(z.ancestors, doc, id)
    ensures BlockFrom([x, y, z], doc, id)
  {
  }

  /** Inserting a label adds the comment span and no other element. */
  lemma InsertCommentAddsOnlyLabel(doc: Doc, id: string, comment: string)
    ensures AddsOnlyFor(InsertComment(doc, id, comment), doc, id)
  {
    var d := InsertComment(doc, id, comment);
    if SpanAttached(doc, id) {
      var l := LastOf(doc, id, |doc|).value;
      forall k | 0 <= k < |d|
        ensures ChainFrom(d[k].ancestors, doc, id)
      {
        if k <= l {
          assert d[k] == d[..l + 1][k];
          ChainFromLeaf(doc[k].ancestors, doc, k, id);
        } else if k == l + 1 {
          var A := doc[l].ancestors;
          var C := Above(A, id);
          assert forall x :: x in C ==> x in A by {
            forall x | x in C
              ensures x in A
            {
              var j :| 0 <= j < |C| && C[j] == x;
              assert A[|A| - |C| + j] == x;
            }
          }
          ChainFromLeaf(d[k].ancestors, doc, l, id);
        } else {
          assert d[k] == d[l + 2..][k - l - 2];
          ChainFromLeaf(doc[k - 1].ancestors, doc, k - 1, id);
        }
      }
    } else {
      NoneNew(doc);
    }
  }
}

=== FILE: resolver.dfy ===
/** The position resolver (`deserializeTextPosition`): rebuilds the index of
    the document, finds the leftmost occurrence of the stored passage in it,
    and maps the selection inside that passage back to two text-node
    boundary points. */
module Resolver {
  import opened Basics
  import opened Dom
  import opened Anchor
  import opened TextIndex

  /** The segments the mapping loop settled on: where the range starts and
      where it ends (`startNode`/`endNode`, absent while still `null`). */
  datatype Located = Located(startSeg: Option<nat>, endSeg: Option<nat>)

  /** The mapping loop over the segments: the range starts in the first
      segment ending after `ts`, and ends in the first segment ending at or
      after `te`, where the loop stops. */
  function Locate(segs: seq<Segment>, ts: int, te: int): (loc: Located)
    ensures loc.endSeg.Some? ==>
              && loc.endSeg.value < |segs| && segs[loc.endSeg.value].end >= te
              && forall i :: 0 <= i < loc.endSeg.value ==> segs[i].end < te
    ensures loc.endSeg.None? ==> forall i :: 0 <= i < |segs| ==> segs[i].end < te
    ensures loc.startSeg.Some? ==>
              && loc.startSeg.value < |segs|
              && (loc.endSeg.Some? ==> loc.startSeg.value <= loc.endSeg.value)
              && segs[loc.startSeg.value].end > ts
              && forall i :: 0 <= i < loc.startSeg.value ==> segs[i].end <= ts
    ensures loc.startSeg.None? ==>
              forall i :: 0 <= i < |segs| && (loc.endSeg.None? || i <= loc.endSeg.value) ==> segs[i].end <= ts
  {
    ScanSettles(segs, ts, te, 0, None);
    Scan(segs, ts, te, 0, None)
  }

  /** The loop from segment `k` on, `found` being the start segment chosen
      so far. A segment after the one where the loop breaks is never
      visited. */
  function Scan(segs: seq<Segment>, ts: int, te: int, k: nat, found: Option<nat>): Located
    requires k <= |segs|
    decreases |segs| - k
  {
    if k == |segs| then Located(found, None)
    else
      var found' := if found.None? && segs[k].end > ts then Some(k) else found;
      if segs[k].end >= te then Located(found', Some(k))
      else Scan(segs, ts, te, k + 1, found')
  }

  /** What the loop knows on entering segment `k`: it has not broken yet,
      and `found` is the first segment ending after `ts`, if any. */
  ghost predicate ScannedTo(segs: seq<Segment>, ts: int, te: int, k: nat, found: Option<nat>) {
    && k <= |segs|
    && (forall i :: 0 <= i < k ==> segs[i].end < te)
    && (found.None? ==> forall i :: 0 <= i < k ==> segs[i].end <= ts)
    && (found.Some? ==> found.value < k && segs[found.value].end > ts)
    && (found.Some? ==> forall i :: 0 <= i < found.value ==> segs[i].end <= ts)
  }

  /** What the loop has settled once it stops, having started at `k`. */
  ghost predicate Settled(segs: seq<Segment>, ts: int, te: int, k: nat, loc: Located) {
    && (loc.endSeg.Some? ==>
          && k <= loc.endSeg.value < |segs| && segs[loc.endSeg.value].end >= te
          && forall i :: 0 <= i < loc.endSeg.value ==> segs[i].end < te)
    && (loc.endSeg.None? ==> forall i :: 0 <= i < |segs| ==> segs[i].end < te)
    && (loc.startSeg.Some? ==>
          && loc.startSeg.value < |segs|
          && (loc.endSeg.Some? ==> loc.startSeg.value <= loc.endSeg.value)
          && segs[loc.startSeg.value].end > ts
          && forall i :: 0 <= i < loc.startSeg.value ==> segs[i].end <= ts)
    && (loc.startSeg.None? ==>
          forall i :: 0 <= i < |segs| && (loc.endSeg.None? || i <= loc.endSeg.value) ==> segs[i].end <= ts)
  }

  /** The loop keeps its invariant up to where it stops. */
  lemma {:induction false} ScanSettles(segs: seq<Segment>, ts: int, te: int, k: nat, found: Option<nat>)
    requires ScannedTo(segs, ts, te, k, found)
    ensures Settled(segs, ts, te, k, Scan(segs, ts, te, k, found))
    decreases |segs| - k
  {
    if k < |segs| {
      var found' := if found.None? && segs[k].end > ts then Some(k) else found;
      if segs[k].end < te {
        assert ScannedTo(segs, ts, te, k + 1, found');
        ScanSettles(segs, ts, te, k + 1, found');
      }
    }
  }

  /** The boundary points of the buffer interval `[ts, te)`: each lies in a
      text node at the matching buffer position. Whenever the interval is
      non-empty and inside the buffer, both are found. */
  function Boundaries(doc: Doc, idx: Index, ts: int, te: int): (r: Option<Range>)
    requires Describes(doc, idx)
    requires 0 <= ts <= te
    ensures r.Some? ==> ValidRange(doc, r.value)
    ensures r.Some? ==> BufferOffset(doc, r.value.startLeaf, r.value.startOffset) == ts
    ensures r.Some? ==> BufferOffset(doc, r.value.endLeaf, r.value.endOffset) == te
    ensures ts < te <= |idx.buffer| ==> r.Some?
  {
    var loc := Locate(idx.segments, ts, te);
    LocatedIsComplete(idx, loc, ts, te);
    if loc.startSeg.Some? && loc.endSeg.Some? then
      var a := idx.segments[loc.startSeg.value];
      var b := idx.segments[loc.endSeg.value];
      var range := Range(a.leaf, ts - a.start, b.leaf, te - b.start);
      LocatedIsValid(doc, idx, loc, ts, te);
      Some(range)
    else None
  }

  /** Both boundary segments exist for a non-empty interval inside the
      buffer. */
  lemma LocatedIsComplete(idx: Index, loc: Located, ts: int, te: int)
    requires EndToEnd(idx)
    requires 0 <= ts
    requires loc == Locate(idx.segments, ts, te)
    ensures ts < te <= |idx.buffer| ==> loc.startSeg.Some? && loc.endSeg.Some?
  {
    var segs := idx.segments;
    if ts < te <= |idx.buffer| {
      assert |segs| > 0;
      assert segs[|segs| - 1].end >= te;
    }
  }

  /** The boundary points built from the located segments exist, are in
      order, and sit at the buffer positions `ts` and `te`. */
  lemma LocatedIsValid(doc: Doc, idx: Index, loc: Located, ts: int, te: int)
    requires Describes(doc, idx)
    requires 0 <= ts <= te
    requires loc == Locate(idx.segments, ts, te)
    requires loc.startSeg.Some? && loc.endSeg.Some?
    ensures var a, b := idx.segments[loc.startSeg.value], idx.segments[loc.endSeg.value];
            && ValidRange(doc, Range(a.leaf, ts - a.start, b.leaf, te - b.start))
            && BufferOffset(doc, a.leaf, ts - a.start) == ts
            && BufferOffset(doc, b.leaf, te - b.start) == te
  {
    var segs := idx.segments;
    var i, j := loc.startSeg.value, loc.endSeg.value;
    var a, b := segs[i], segs[j];
    assert SegmentOf(doc, idx.buffer, a) && SegmentOf(doc, idx.buffer, b);
    assert a.start <= ts by {
      if i > 0 { assert segs[i - 1].end <= ts; }
    }
    assert b.start <= te by {
      if j > 0 { assert segs[j - 1].end < te; }
    }
    assert a.leaf == b.leaf ==> i == j;
  }

  /** The stored passage is found at its leftmost occurrence in the buffer:
      the range starts right after the before-context of that occurrence and
      spans as many buffer characters as the selected text has. */
  ghost predicate AnchoredAtFirstMatch(doc: Doc, p: TextPosition, r: Range)
    requires ValidRange(doc, r)
  {
    var start := BufferOffset(doc, r.startLeaf, r.startOffset);
    var m := start - |p.beforeText|;
    && OccursAt(IndexedText(doc), p.Pattern(), m)
    && (forall i :: 0 <= i < m ==> !OccursAt(IndexedText(doc), p.Pattern(), i))
    && BufferOffset(doc, r.endLeaf, r.endOffset) == start + |p.selectedText|
  }

  /** `deserializeTextPosition(data)`. The result, when there is one, is a
      valid range whose text is exactly the stored selected text (the final
      `range.toString() === selectedText` check), anchored at the leftmost
      occurrence of the stored passage among the accepted text nodes. When
      the passage does not occur there, nothing is found. The `try` around
      the range construction never catches: the boundary points built here
      always exist. */
  function Resolve(doc: Doc, p: TextPosition): (r: Option<Range>)
    ensures r.Some? ==> ValidRange(doc, r.value) && RangeText(doc, r.value) == p.selectedText
    ensures r.Some? ==> AnchoredAtFirstMatch(doc, p, r.value)
    ensures (forall i :: !OccursAt(IndexedText(doc), p.Pattern(), i)) ==> r.None?
    ensures Clean(doc) && p.selectedText != "" && (exists i :: OccursAt(IndexedText(doc), p.Pattern(), i)) ==> r.Some?
  {
    var idx := BuildIndex(doc);
    match IndexOf(idx.buffer, p.Pattern())
    case None => None
    case Some(m) =>
      var ts := m + |p.beforeText|;
      var te := ts + |p.selectedText|;
      var found := Boundaries(doc, idx, ts, te);
      FoundComplete(doc, p, m, idx, ts, te, found);
      FoundAnchored(doc, p, m, found);
      Confirm(doc, p, found)
  }

  /** A range rebuilt at the buffer positions of the selection inside the
      leftmost occurrence `m` of the passage is anchored there. */
  lemma FoundAnchored(doc: Doc, p: TextPosition, m: nat, found: Option<Range>)
    requires OccursAt(IndexedText(doc), p.Pattern(), m)
    requires forall i :: 0 <= i < m ==> !OccursAt(IndexedText(doc), p.Pattern(), i)
    requires found.Some? ==> ValidRange(doc, found.value)
    requires found.Some? ==> BufferOffset(doc, found.value.startLeaf, found.value.startOffset) == m + |p.beforeText|
    requires found.Some? ==> BufferOffset(doc, found.value.endLeaf, found.value.endOffset) == m + |p.beforeText| + |p.selectedText|
    ensures found.Some? ==> AnchoredAtFirstMatch(doc, p, found.value)
  {
  }

  /** On a clean document, the boundary points of a non-empty selection
      inside an occurrence of the passage exist and hold the selection. */
  lemma FoundComplete(doc: Doc, p: TextPosition, m: nat, idx: Index, ts: nat, te: nat, found: Option<Range>)
    requires Describes(doc, idx) && idx.buffer == IndexedText(doc)
    requires OccursAt(idx.buffer, p.Pattern(), m)
    requires ts == m + |p.beforeText| && te == ts + |p.selectedText|
    requires found == Boundaries(doc, idx, ts, te)
    ensures Clean(doc) && p.selectedText != "" ==> found.Some? && RangeText(doc, found.value) == p.selectedText
  {
    assert te <= |idx.buffer| && idx.buffer[ts..te] == p.selectedText by {
      SelectionInPassage(idx.buffer, p, m);
    }
    if Clean(doc) && p.selectedText != "" {
      assert found.Some?;
      FoundRangeText(doc, found, ts, te);
    }
  }

  /** The final check on the rebuilt range: kept only when its text is the
      stored selected text. */
  function Confirm(doc: Doc, p: TextPosition, found: Option<Range>): (r: Option<Range>)
    requires found.Some? ==> ValidRange(doc, found.value)
    ensures r.Some? <==> found.Some? && RangeText(doc, found.value) == p.selectedText
    ensures r.Some? ==> r == found
    ensures r.None? ==> found.None? || RangeText(doc, found.value) != p.selectedText
  {
    match found
    case None => None
    case Some(range) => if RangeText(doc, range) == p.selectedText then found else None
  }

  /** Every text node the walker rejects is empty: the document text and the
      buffer coincide. */
  predicate Clean(doc: Doc) {
    forall k :: 0 <= k < |doc| && !doc[k].Indexed() ==> doc[k].text == ""
  }

  lemma {:induction false} CleanTextIsIndexed(doc: Doc)
    requires Clean(doc)
    ensures IndexedText(doc) == AllText(doc)
  {
    if |doc| > 0 {
      assert Clean(doc[1..]) by {
        forall k | 0 <= k < |doc[1..]| && !doc[1..][k].Indexed()
          ensures doc[1..][k].text == ""
        {
          assert doc[1..][k] == doc[k + 1];
        }
      }
      CleanTextIsIndexed(doc[1..]);
    }
  }

  /** The selected text sits right after the before-context in an
      occurrence of the passage. */
  lemma SelectionInPassage(W: string, p: TextPosition, m: int)
    requires OccursAt(W, p.Pattern(), m)
    ensures m + |p.beforeText| + |p.selectedText| <= |W|
    ensures W[m + |p.beforeText|..m + |p.beforeText| + |p.selectedText|] == p.selectedText
  {
    var b := |p.beforeText|;
    SliceOfSlice(W, m, m + |p.Pattern()|, b, b + |p.selectedText|);
    assert p.Pattern()[b..b + |p.selectedText|] == p.selectedText;
  }

  /** On a clean document a range's text is the buffer between the buffer
      positions of its boundary points. */
  lemma FoundRangeText(doc: Doc, found: Option<Range>, ts: int, te: int)
    requires found.Some? ==> ValidRange(doc, found.value)
    requires found.Some? ==> BufferOffset(doc, found.value.startLeaf, found.value.startOffset) == ts
    requires found.Some? ==> BufferOffset(doc, found.value.endLeaf, found.value.endOffset) == te
    ensures Clean(doc) && found.Some? ==> 0 <= ts <= te <= |IndexedText(doc)|
    ensures Clean(doc) && found.Some? ==> RangeText(doc, found.value) == IndexedText(doc)[ts..te]
  {
    if Clean(doc) && found.Some? {
      var r := found.value;
      RangeTextIsSlice(doc, r);
      CleanTextIsIndexed(doc);
      CleanPrefix(doc, r.startLeaf);
      CleanPrefix(doc, r.endLeaf);
    }
  }

  /** On a clean document both ways of counting a boundary position agree. */
  lemma CleanPrefix(doc: Doc, k: nat)
    requires Clean(doc) && k <= |doc|
    ensures forall o :: TextOffset(doc, k, o) == BufferOffset(doc, k, o)
  {
    assert Clean(doc[..k]);
    CleanTextIsIndexed(doc[..k]);
  }

  /** Serializing a non-empty selection of a clean document and resolving
      the result in the same document yields a range with the same text. */
  lemma RoundTrip(doc: Doc, r: Range, url: string)
    requires ValidRange(doc, r) && Clean(doc)
    requires RangeText(doc, r) != ""
    ensures var found := Resolve(doc, SerializeTextPosition(doc, r, url));
            found.Some? && RangeText(doc, found.value) == RangeText(doc, r)
  {
    var p := SerializeTextPosition(doc, r, url);
    CleanTextIsIndexed(doc);
  }

  /** A page where the round trip fails: a paragraph holding the text "a",
      a script "X" and the text "b", followed by a second paragraph "ab". */
  function StraddlingDoc(): Doc {
    [Leaf("a", [Plain(0, "P", {})]), Leaf("X", [Plain(1, "SCRIPT", {}), Plain(0, "P", {})]),
     Leaf("b", [Plain(0, "P", {})]), Leaf("ab", [Plain(2, "P", {})])]
  }

  /** The buffer up to each leaf of the page: the script text is left
      out. */
  lemma StraddlingBuffer()
    ensures IndexedText(StraddlingDoc()[..1]) == "a"
    ensures IndexedText(StraddlingDoc()[..2]) == "a"
    ensures IndexedText(StraddlingDoc()[..3]) == "ab"
    ensures IndexedText(StraddlingDoc()) == "abab"
  {
    var doc := StraddlingDoc();
    assert doc[..0] == [];
    assert doc[3].ancestors[0].TagName() == "P";
    for k := 0 to 4
      invariant IndexedText(doc[..k]) == ["", "a", "a", "ab", "abab"][k]
    {
      assert doc[..k + 1] == doc[..k] + [doc[k]];
      IndexedTextSnoc(doc[..k], doc[k]);
    }
    assert doc[..4] == doc;
  }

  /** The text between the first paragraph and each later leaf. */
  lemma StraddlingMiddles()
    ensures AllText(StraddlingDoc()[1..1]) == ""
    ensures AllText(StraddlingDoc()[1..2]) == "X"
    ensures AllText(StraddlingDoc()[1..3]) == "Xb"
  {
    var doc := StraddlingDoc();
    assert doc[1..1] == [];
    assert doc[1..2] == [doc[1]];
    assert doc[1..3] == [doc[1]] + [doc[2]];
    GatherAppend([doc[1]], [doc[2]], _ => true);
  }

  /** Every range of the page from buffer position 0 to buffer position 2
      starts at the beginning of the first paragraph and reads "aX" or
      "aXb", never "ab". */
  lemma StraddlingRanges(found: Option<Range>)
    requires found.Some? ==> ValidRange(StraddlingDoc(), found.value)
    requires found.Some? ==> BufferOffset(StraddlingDoc(), found.value.startLeaf, found.value.startOffset) == 0
    requires found.Some? ==> BufferOffset(StraddlingDoc(), found.value.endLeaf, found.value.endOffset) == 2
    ensures found.Some? ==> RangeText(StraddlingDoc(), found.value) != "ab"
  {
    if found.Some? {
      var doc, r := StraddlingDoc(), found.value;
      StraddlingBuffer();
      StraddlingMiddles();
      assert r.startLeaf == 0 && r.startOffset == 0;
      if r.endLeaf == 1 {
        assert RangeText(doc, r) == "aX";
      } else if r.endLeaf == 2 {
        assert RangeText(doc, r) == "aXb";
      } else {
        assert r.endLeaf == 3 && r.endOffset == 0;
        assert RangeText(doc, r) == "aXb";
      }
    }
  }

  /** Without the clean-document hypothesis the round trip can fail:
      selecting the whole second paragraph stores the passage "ab", whose
      first occurrence in the buffer straddles the skipped script; the range
      rebuilt there reads "aXb", so the final check rejects it and nothing
      is restored. */
  lemma RoundTripCanFail()
    ensures var r := Range(3, 0, 3, 2);
            && ValidRange(StraddlingDoc(), r) && RangeText(StraddlingDoc(), r) == "ab"
            && Resolve(StraddlingDoc(), SerializeTextPosition(StraddlingDoc(), r, "")).None?
  {
    StraddlingSelection();
    StraddlingNotFound(SerializeTextPosition(StraddlingDoc(), Range(3, 0, 3, 2), ""));
  }

  /** Any position storing the passage "ab" with no context before the
      selection fails to resolve in the straddling document. */
  lemma StraddlingNotFound(p: TextPosition)
    requires p.beforeText == "" && p.selectedText == "ab" && p.Pattern() == "ab"
    ensures Resolve(StraddlingDoc(), p).None?
  {
    var doc := StraddlingDoc();
    assert OccursAt(IndexedText(doc), p.Pattern(), 0) by {
      StraddlingBuffer();
    }
    var found := Resolve(doc, p);
    assert found.Some? ==> (BufferOffset(doc, found.value.startLeaf, found.value.startOffset) == 0
                            && BufferOffset(doc, found.value.endLeaf, found.value.endOffset) == 2) by {
      AnchoredAtStart(doc, p, found);
    }
    StraddlingRanges(found);
  }

  /** The second paragraph, selected whole, and its stored position. */
  lemma StraddlingSelection()
    ensures var doc, r := StraddlingDoc(), Range(3, 0, 3, 2);
            && ValidRange(doc, r) && RangeText(doc, r) == "ab"
            && var p := SerializeTextPosition(doc, r, "");
               p.beforeText == "" && p.selectedText == "ab" && p.Pattern() == "ab"
  {
    var doc, r := StraddlingDoc(), Range(3, 0, 3, 2);
    var x := doc[3];
    assert x.text == "ab";
    assert ValidRange(doc, r);
    assert RangeText(doc, r) == x.text[0..2];
    var p := SerializeTextPosition(doc, r, "");
    assert p.beforeText == x.text[0..0];
    assert p.afterText == x.text[2..2];
  }

  /** When the passage opens the buffer and has no context before the
      selection, a rebuilt range starts at buffer position 0. */
  lemma AnchoredAtStart(doc: Doc, p: TextPosition, found: Option<Range>)
    requires found == Resolve(doc, p)
    requires p.beforeText == "" && OccursAt(IndexedText(doc), p.Pattern(), 0)
    ensures found.Some? ==> (BufferOffset(doc, found.value.startLeaf, found.value.startOffset) == 0
                             && BufferOffset(doc, found.value.endLeaf, found.value.endOffset) == |p.selectedText|)
  {
    if found.Some? {
      assert AnchoredAtFirstMatch(doc, p, found.value);
    }
  }
}

=== FILE: store.dfy ===
/** The highlight store of one page: the table of highlights (a `Map` keyed
    by id, iterated in insertion order), the page's document, and the
    operations that keep the two in step. Every operation that changes the
    table ends by saving it; the saved form is `Snapshot`. */
module Store {
  import opened Basics
  import opened Dom
  import opened TextIndex
  import opened Anchor
  import opened Resolver
  import opened Decoration
  import opened Edits

  /** Background colour of a highlight created without one. */
  const DefaultColor: string := "#fff9e6"

  /** One entry of the table (`highlightData`). The references to the span
      and label elements are not kept: both are found in the document by
      the id they carry. */
  datatype Highlight = Highlight(id: string, comment: string, color: string, text: string, position: TextPosition)

  /** The page: its document, the table in insertion order, the
      `isInitialized` flag, and `window.location.href`. */
  datatype Page = Page(doc: Doc, highlights: seq<Highlight>, initialized: bool, url: string)

  /** One element of the saved or exported array. The fields are optional
      because stored data is read back as it was written, possibly by
      another version or by hand; `url` is present only in the export. */
  datatype StoredRecord = StoredRecord(
    id: Option<string>, position: Option<TextPosition>, comment: Option<string>,
    color: Option<string>, text: Option<string>, url: Option<string>)

  // ----- the table -----

  predicate UniqueIds(hs: seq<Highlight>) {
    forall i, j :: 0 <= i < j < |hs| ==> hs[i].id != hs[j].id
  }

  /** `highlights.get(id)`: the position of the entry with key `id`. */
  function Find(hs: seq<Highlight>, id: string): (r: Option<nat>)
    ensures r.Some? ==> r.value < |hs| && hs[r.value].id == id
    ensures r.Some? ==> forall i :: 0 <= i < r.value ==> hs[i].id != id
    ensures r.None? <==> forall i :: 0 <= i < |hs| ==> hs[i].id != id
  {
    FindFrom(hs, id, 0)
  }

  function FindFrom(hs: seq<Highlight>, id: string, from: nat): (r: Option<nat>)
    requires from <= |hs|
    ensures r.Some? ==> from <= r.value < |hs| && hs[r.value].id == id
    ensures r.Some? ==> forall i :: from <= i < r.value ==> hs[i].id != id
    ensures r.None? <==> forall i :: from <= i < |hs| ==> hs[i].id != id
    decreases |hs| - from
  {
    if from == |hs| then None
    else if hs[from].id == id then Some(from)
    else FindFrom(hs, id, from + 1)
  }

  /** `highlights.set(hl.id, hl)`: a new key goes last; an existing key
      keeps its place and takes the new value. */
  function Put(hs: seq<Highlight>, hl: Highlight): (r: seq<Highlight>)
    ensures Find(hs, hl.id).None? ==> r == hs + [hl]
    ensures Find(hs, hl.id).Some? ==> |r| == |hs| && r[Find(hs, hl.id).value] == hl
    ensures Find(r, hl.id).Some? && r[Find(r, hl.id).value] == hl
    ensures forall i :: 0 <= i < |hs| && hs[i].id != hl.id ==> r[i] == hs[i]
    ensures forall x :: x in r ==> x == hl || x in hs
    ensures UniqueIds(hs) ==> UniqueIds(r)
    ensures Consistent(hs) && hl.text == hl.position.selectedText ==> Consistent(r)
  {
    match Find(hs, hl.id)
    case None =>
      var r := hs + [hl];
      assert r[|hs|] == hl;
      r
    case Some(i) =>
      var r := hs[i := hl];
      assert forall j :: 0 <= j < i ==> r[j] == hs[j];
      r
  }

  /** `highlights.delete(id)`: the entry with key `id` goes, and the others
      keep their insertion order. */
  function Delete(hs: seq<Highlight>, id: string): (r: seq<Highlight>)
    ensures forall x :: x in r <==> x in hs && x.id != id
    ensures Find(r, id).None?
    ensures Find(hs, id).None? ==> r == hs
    ensures UniqueIds(hs) && Find(hs, id).Some? ==>
              var i := Find(hs, id).value;
              r == hs[..i] + hs[i + 1..]
  {
    if |hs| == 0 then []
    else
      var rest := Delete(hs[1..], id);
      assert forall x :: x in hs[1..] ==> x in hs;
      if hs[0].id == id then
        DeleteHead(hs, id, rest);
        rest
      else
        DeleteSkip(hs, id, rest);
        [hs[0]] + rest
  }

  /** The step of `Delete` that drops the first entry. */
  lemma DeleteHead(hs: seq<Highlight>, id: string, rest: seq<Highlight>)
    requires |hs| > 0 && hs[0].id == id
    requires Find(hs[1..], id).None? ==> rest == hs[1..]
    ensures UniqueIds(hs) ==> rest == hs[..0] + hs[1..]
  {
    if UniqueIds(hs) {
      var tail := hs[1..];
      assert forall j :: 0 <= j < |tail| ==> tail[j] == hs[j + 1];
      assert Find(tail, id).None?;
    }
  }

  /** The step of `Delete` that keeps the first entry. */
  lemma DeleteSkip(hs: seq<Highlight>, id: string, rest: seq<Highlight>)
    requires |hs| > 0 && hs[0].id != id
    requires Find(hs[1..], id).None? ==> rest == hs[1..]
    requires UniqueIds(hs[1..]) && Find(hs[1..], id).Some? ==>
               var j := Find(hs[1..], id).value;
               rest == hs[1..][..j] + hs[1..][j + 1..]
    ensures Find(hs, id).None? ==> [hs[0]] + rest == hs
    ensures UniqueIds(hs) && Find(hs, id).Some? ==>
              var i := Find(hs, id).value;
              [hs[0]] + rest == hs[..i] + hs[i + 1..]
  {
    if Find(hs, id).None? {
      var tail := hs[1..];
      assert forall j :: 0 <= j < |tail| ==> tail[j] == hs[j + 1];
      assert Find(tail, id).None?;
      assert hs == [hs[0]] + tail;
    } else if UniqueIds(hs) {
      var i := Find(hs, id).value;
      TailUnique(hs);
      FindInTail(hs, id);
      CutAfterHead(hs, i, rest);
    }
  }

  /** Cutting entry `i` out of the tail and putting the head back is
      cutting it out of the whole table. */
  lemma CutAfterHead(hs: seq<Highlight>, i: nat, rest: seq<Highlight>)
    requires 0 < i < |hs| && rest == hs[1..][..i - 1] + hs[1..][i..]
    ensures [hs[0]] + rest == hs[..i] + hs[i + 1..]
  {
    assert hs[1..][..i - 1] == hs[1..i];
    assert hs[1..][i..] == hs[i + 1..];
    assert hs[..i] == [hs[0]] + hs[1..i];
  }

  /** When the first entry does not have key `id`, it is found one place
      later in the whole table than in its tail. */
  lemma FindInTail(hs: seq<Highlight>, id: string)
    requires |hs| > 0 && hs[0].id != id && Find(hs, id).Some?
    ensures Find(hs[1..], id) == Some(Find(hs, id).value - 1)
  {
    var i := Find(hs, id).value;
    var tail := hs[1..];
    assert tail[i - 1] == hs[i];
    var j := Find(tail, id).value;
    assert hs[j + 1] == tail[j];
  }

  /** Deleting keeps the keys distinct. */
  lemma {:induction false} DeleteKeepsUnique(hs: seq<Highlight>, id: string)
    requires UniqueIds(hs)
    ensures UniqueIds(Delete(hs, id))
    decreases |hs|
  {
    if |hs| > 0 {
      var tail := hs[1..];
      var rest := Delete(tail, id);
      TailUnique(hs);
      DeleteKeepsUnique(tail, id);
      if hs[0].id != id {
        assert forall x :: x in rest ==> x.id != hs[0].id by {
          forall x | x in rest
            ensures x.id != hs[0].id
          {
            var k :| 0 <= k < |tail| && tail[k] == x;
            assert hs[k + 1] == x;
          }
        }
        PrependUnique(hs[0], rest);
      }
    }
  }

  lemma TailUnique(hs: seq<Highlight>)
    requires |hs| > 0 && UniqueIds(hs)
    ensures UniqueIds(hs[1..])
  {
    var tail := hs[1..];
    forall i, j | 0 <= i < j < |tail|
      ensures tail[i].id != tail[j].id
    {
      assert tail[i] == hs[i + 1] && tail[j] == hs[j + 1];
    }
  }

  lemma PrependUnique(h: Highlight, rest: seq<Highlight>)
    requires UniqueIds(rest) && forall x :: x in rest ==> x.id != h.id
    ensures UniqueIds([h] + rest)
  {
    var r := [h] + rest;
    forall i, j | 0 <= i < j < |r|
      ensures r[i].id != r[j].id
    {
      if i == 0 {
        assert r[j] in rest;
      } else {
        assert r[i] == rest[i - 1] && r[j] == rest[j - 1];
      }
    }
  }

  /** `Array.from(highlights.keys())` */
  function Ids(hs: seq<Highlight>): (r: seq<string>)
    ensures |r| == |hs| && forall i :: 0 <= i < |hs| ==> r[i] == hs[i].id
  {
    seq(|hs|, i requires 0 <= i < |hs| => hs[i].id)
  }

  /** The stored text is the text of the stored selection. */
  predicate Consistent(hs: seq<Highlight>) {
    forall i :: 0 <= i < |hs| ==> hs[i].text == hs[i].position.selectedText
  }

  /** A comment is shown exactly when it is not blank (`comment &&
      comment.trim()`). */
  predicate Shown(comment: string) {
    Trim(comment) != ""
  }

  // ----- operations -----

  /** The table entry `createHighlight` records for a range: the range's
      text, the position serialized before the document changes, and the
      colour and comment with their defaults applied (`comment || ""`). */
  function Entry(doc: Doc, url: string, r: Range, id: string, color: Option<string>, comment: Option<string>): (h: Highlight)
    requires ValidRange(doc, r)
    ensures Made(h, doc, url, r, id, color, comment)
  {
    Highlight(id, comment.GetOr(""), color.GetOr(DefaultColor), RangeText(doc, r), SerializeTextPosition(doc, r, url))
  }

  /** `h` is the entry made for `r` under `id`. */
  predicate Made(h: Highlight, doc: Doc, url: string, r: Range, id: string, color: Option<string>, comment: Option<string>)
    requires ValidRange(doc, r)
  {
    && h.id == id && h.text == RangeText(doc, r) && h.position == SerializeTextPosition(doc, r, url)
    && h.color == color.GetOr(DefaultColor) && h.comment == comment.GetOr("")
  }

  /** The label step of `updateComment`: the old label goes, and a label
      for `comment` is shown when it is not blank. The result depends only
      on the document without the label. */
  function Relabel(doc: Doc, id: string, comment: string): (d: Doc)
    ensures Shown(comment) ==> d == InsertComment(RemoveComment(doc, id), id, comment)
    ensures !Shown(comment) ==> d == RemoveComment(doc, id)
    ensures RemoveComment(d, id) == RemoveComment(doc, id)
    ensures !Shown(comment) ==> !CommentAttached(d, id)
    ensures SpanAttached(RemoveComment(doc, id), id) ==> SpanAttached(d, id)
    ensures Shown(comment) && SpanAttached(RemoveComment(doc, id), id) ==> CommentAttached(d, id)
    ensures !SpanAttached(RemoveComment(doc, id), id) ==> !CommentAttached(d, id)
    ensures IndexedText(d) == IndexedText(RemoveComment(doc, id))
    ensures SpanText(d, id) == SpanText(RemoveComment(doc, id), id)
  {
    var cleared := RemoveComment(doc, id);
    if Shown(comment) then
      CommentRoundTrip(cleared, id, comment);
      InsertComment(cleared, id, comment)
    else cleared
  }

  /** The document side of `createHighlight`: the span goes in, and for a
      comment that is not blank, the label. */
  function Decorate(doc: Doc, r: Range, id: string, color: string, comment: string): (d: Doc)
    requires ValidRange(doc, r)
    ensures !Shown(comment) ==> AllText(d) == AllText(doc)
    ensures IdUnused(doc, id) ==> RemoveComment(d, id) == Wrap(doc, r, id, color)
    ensures IdUnused(doc, id) ==> SpanAttached(d, id) && SpanText(d, id) == RangeText(doc, r)
    ensures IdUnused(doc, id) ==> (CommentAttached(d, id) <==> Shown(comment))
  {
    var wrapped := Wrap(doc, r, id, color);
    if Shown(comment) then
      assert IdUnused(doc, id) ==> RemoveComment(wrapped, id) == wrapped by {
        if IdUnused(doc, id) {
          assert !CommentAttached(doc, id);
        }
      }
      Relabel(wrapped, id, comment)
    else wrapped
  }

  /** `createHighlight(range, color, comment)` with the id `id` that
      `generateId` returns. The new entry is the only change to the
      table; for a fresh id, the span holds the range's text and a label
      is shown exactly when the comment is not blank. */
  function CreateHighlight(p: Page, r: Range, id: string, color: Option<string>, comment: Option<string>): (q: Page)
    requires ValidRange(p.doc, r)
    ensures Find(q.highlights, id).Some? && Made(q.highlights[Find(q.highlights, id).value], p.doc, p.url, r, id, color, comment)
    ensures forall x :: x in q.highlights && x !in p.highlights ==> Made(x, p.doc, p.url, r, id, color, comment)
    ensures Find(p.highlights, id).None? ==> |q.highlights| == |p.highlights| + 1 && q.highlights[..|p.highlights|] == p.highlights
    ensures |q.highlights| <= |p.highlights| + 1
    ensures UniqueIds(p.highlights) ==> UniqueIds(q.highlights)
    ensures Consistent(p.highlights) ==> Consistent(q.highlights)
    ensures !Shown(comment.GetOr("")) ==> AllText(q.doc) == AllText(p.doc)
    ensures IdUnused(p.doc, id) ==> SpanAttached(q.doc, id) && SpanText(q.doc, id) == RangeText(p.doc, r)
    ensures IdUnused(p.doc, id) ==> (CommentAttached(q.doc, id) <==> Shown(comment.GetOr("")))
    ensures IdUnused(p.doc, id) ==> RemoveComment(q.doc, id) == Wrap(p.doc, r, id, color.GetOr(DefaultColor))
    ensures q.initialized == p.initialized && q.url == p.url
  {
    var hl := Entry(p.doc, p.url, r, id, color, comment);
    var hs := Put(p.highlights, hl);
    Page(Decorate(p.doc, r, id, hl.color, hl.comment), hs, p.initialized, p.url)
  }

  /** The entry `i` with comment `c`. */
  function SetComment(hs: seq<Highlight>, i: nat, c: string): (r: seq<Highlight>)
    requires i < |hs|
    ensures |r| == |hs| && r[i].comment == c
    ensures forall j :: 0 <= j < |hs| ==> r[j].id == hs[j].id
  {
    hs[i := hs[i].(comment := c)]
  }

  /** `updateComment(id, newComment)`: the entry takes `newComment || ""`
      and the label is redone. Nothing happens for an unknown id. */
  function UpdateComment(p: Page, id: string, newComment: Option<string>): (q: Page)
    ensures Find(p.highlights, id).None? ==> q == p
    ensures Find(p.highlights, id).Some? ==>
              var i := Find(p.highlights, id).value;
              && q.highlights == p.highlights[i := p.highlights[i].(comment := newComment.GetOr(""))]
              && q.doc == Relabel(p.doc, id, newComment.GetOr(""))
    ensures q.initialized == p.initialized && q.url == p.url
  {
    match Find(p.highlights, id)
    case None => p
    case Some(i) =>
      var c := newComment.GetOr("");
      p.(doc := Relabel(p.doc, id, c), highlights := SetComment(p.highlights, i, c))
  }

  /** `changeHighlightColor(id, newColor)`: when the span is in the
      document, it and the entry take the new colour. */
  function ChangeColor(p: Page, id: string, newColor: string): (q: Page)
    ensures Find(p.highlights, id).None? || !SpanAttached(p.doc, id) ==> q == p
    ensures Find(p.highlights, id).Some? && SpanAttached(p.doc, id) ==>
              var i := Find(p.highlights, id).value;
              && |q.highlights| == |p.highlights|
              && q.highlights[i] == p.highlights[i].(color := newColor)
              && (forall j :: 0 <= j < |p.highlights| && j != i ==> q.highlights[j] == p.highlights[j])
              && q.doc == Recolor(p.doc, id, newColor)
    ensures q.initialized == p.initialized && q.url == p.url
  {
    match Find(p.highlights, id)
    case None => p
    case Some(i) =>
      if SpanAttached(p.doc, id) then
        p.(doc := Recolor(p.doc, id, newColor), highlights := p.highlights[i := p.highlights[i].(color := newColor)])
      else p
  }

  /** `removeHighlight(id)`: the label goes, the span is replaced by its
      text, and the entry is deleted. Nothing happens for an unknown id. */
  function RemoveHighlight(p: Page, id: string): (q: Page)
    ensures Find(p.highlights, id).None? ==> q == p
    ensures Find(q.highlights, id).None?
    ensures Find(p.highlights, id).Some? ==> IdUnused(q.doc, id)
    ensures Find(p.highlights, id).Some? ==> q.doc == Unwrap(RemoveComment(p.doc, id), id)
    ensures Find(p.highlights, id).Some? ==> AllText(q.doc) == AllText(RemoveComment(p.doc, id))
    ensures forall x :: x in q.highlights <==> x in p.highlights && x.id != id
    ensures UniqueIds(p.highlights) ==> UniqueIds(q.highlights)
    ensures NoNewElements(q.doc, p.doc)
    ensures q.initialized == p.initialized && q.url == p.url
  {
    match Find(p.highlights, id)
    case None =>
      NoneNew(p.doc);
      p
    case Some(_) =>
      var cleared := RemoveComment(p.doc, id);
      var d := Unwrap(cleared, id);
      assert NoNewElements(d, p.doc) by {
        RemoveCommentAddsNoElement(p.doc, id);
        UnwrapAddsNoElement(cleared, id);
        NewElementsCompose(d, cleared, p.doc);
      }
      assert !CommentAttached(d, id) by {
        UnwrapAddsNoElement(cleared, id);
        CommentStaysOff(d, cleared, id);
      }
      if UniqueIds(p.highlights) then
        DeleteKeepsUnique(p.highlights, id);
        p.(doc := d, highlights := Delete(p.highlights, id))
      else p.(doc := d, highlights := Delete(p.highlights, id))
  }

  lemma NewElementsCompose(a: Doc, b: Doc, c: Doc)
    requires NoNewElements(a, b) && NoNewElements(b, c)
    ensures NoNewElements(a, c)
  {
    forall k, j | 0 <= k < |a| && 0 <= j < |a[k].ancestors|
      ensures Present(a[k].ancestors[j], c)
    {
      assert Present(a[k].ancestors[j], b);
      var i :| 0 <= i < |b| && a[k].ancestors[j] in b[i].ancestors;
      var t :| 0 <= t < |b[i].ancestors| && b[i].ancestors[t] == a[k].ancestors[j];
      assert Present(b[i].ancestors[t], c);
    }
  }

  /** No label of `id` appears through an edit that adds no element. */
  lemma CommentStaysOff(d: Doc, doc: Doc, id: string)
    requires NoNewElements(d, doc) && !CommentAttached(doc, id)
    ensures !CommentAttached(d, id)
  {
    forall k | 0 <= k < |d|
      ensures !d[k].InComment(id)
    {
      forall j | 0 <= j < |d[k].ancestors|
        ensures !d[k].ancestors[j].IsCommentOf(id)
      {
        assert Present(d[k].ancestors[j], doc);
        var i :| 0 <= i < |doc| && d[k].ancestors[j] in doc[i].ancestors;
        var t :| 0 <= t < |doc[i].ancestors| && doc[i].ancestors[t] == d[k].ancestors[j];
        assert !doc[i].InComment(id);
      }
    }
  }

  // ----- saving and exporting -----

  /** The saved form of one entry. The timestamp written next to it is
      not modelled. */
  function Record(h: Highlight, url: Option<string>): StoredRecord {
    StoredRecord(Some(h.id), Some(h.position), Some(h.comment), Some(h.color), Some(h.text), url)
  }

  /** `saveHighlights`: the array written to storage, in table order. */
  function Snapshot(p: Page): (s: seq<StoredRecord>)
    ensures |s| == |p.highlights|
    ensures forall k :: 0 <= k < |s| ==>
              && s[k].id == Some(p.highlights[k].id)
              && s[k].position == Some(p.highlights[k].position)
              && s[k].comment == Some(p.highlights[k].comment)
              && s[k].color == Some(p.highlights[k].color)
              && s[k].text == Some(p.highlights[k].text)
              && s[k].url.None?
  {
    seq(|p.highlights|, k requires 0 <= k < |p.highlights| => Record(p.highlights[k], None))
  }

  /** `exportHighlights`: the same array, each element also carrying the
      page's url. */
  function Export(p: Page): (s: seq<StoredRecord>)
    ensures |s| == |p.highlights|
    ensures forall k :: 0 <= k < |s| ==> s[k] == Snapshot(p)[k].(url := Some(p.url))
  {
    seq(|p.highlights|, k requires 0 <= k < |p.highlights| => Record(p.highlights[k], Some(p.url)))
  }

  /** A saved record whose position resolves, on the page it is loaded
      into, to a range holding the entry's text is loaded back as an entry
      with the entry's text, colour and comment. */
  lemma RecordReloads(p: Page, h: Highlight, id2: string)
    requires Resolve(p.doc, h.position).Some?
    requires RangeText(p.doc, Resolve(p.doc, h.position).value) == h.text
    ensures var q := LoadOne(p, Record(h, None), id2);
            && Find(q.highlights, id2).Some?
            && var x := q.highlights[Find(q.highlights, id2).value];
               x.text == h.text && x.color == h.color && x.comment == h.comment
  {
    var r := Resolve(p.doc, h.position).value;
    LoadResolved(p, Record(h, None), id2, r);
  }

  // ----- clearing, importing, loading -----

  /** `keys.forEach(removeHighlight)`: the entries go, and so do the spans
      and labels of every key that had an entry. */
  function RemoveAll(p: Page, keys: seq<string>): (q: Page)
    ensures forall k :: 0 <= k < |keys| ==> Find(q.highlights, keys[k]).None?
    ensures forall k :: 0 <= k < |keys| && Find(p.highlights, keys[k]).Some? ==> IdUnused(q.doc, keys[k])
    ensures forall x :: x in q.highlights <==> x in p.highlights && x.id !in keys
    ensures UniqueIds(p.highlights) ==> UniqueIds(q.highlights)
    ensures NoNewElements(q.doc, p.doc)
    ensures q.initialized == p.initialized && q.url == p.url
    decreases |keys|
  {
    if |keys| == 0 then
      NoneNew(p.doc);
      p
    else
      var first := RemoveHighlight(p, keys[0]);
      var q := RemoveAll(first, keys[1..]);
      NewElementsCompose(q.doc, first.doc, p.doc);
      ClearedKeys(p, first, q, keys);
      GoneKeys(first, q, keys);
      assert forall k :: 1 <= k < |keys| ==> keys[k] == keys[1..][k - 1];
      q
  }

  /** The first removal takes its own key out of the table and the later
      ones the others; none of them brings an entry back. */
  lemma GoneKeys(first: Page, q: Page, keys: seq<string>)
    requires |keys| > 0 && Find(first.highlights, keys[0]).None?
    requires forall x :: x in q.highlights ==> x in first.highlights
    requires forall k :: 0 <= k < |keys[1..]| ==> Find(q.highlights, keys[1..][k]).None?
    ensures forall x :: x in q.highlights ==> x.id != keys[0]
    ensures forall k :: 0 <= k < |keys| ==> Find(q.highlights, keys[k]).None?
  {
    forall x | x in q.highlights
      ensures x.id != keys[0]
    {
      var i :| 0 <= i < |first.highlights| && first.highlights[i] == x;
    }
    forall k | 0 <= k < |keys|
      ensures Find(q.highlights, keys[k]).None?
    {
      if k == 0 {
        forall i | 0 <= i < |q.highlights|
          ensures q.highlights[i].id != keys[0]
        {
          assert q.highlights[i] in q.highlights;
        }
      } else {
        assert keys[1..][k - 1] == keys[k];
      }
    }
  }

  /** The first removal takes its own key off the page, the later ones take
      off the others, and none of them brings an element back. */
  lemma ClearedKeys(p: Page, first: Page, q: Page, keys: seq<string>)
    requires |keys| > 0
    requires Find(p.highlights, keys[0]).Some? ==> IdUnused(first.doc, keys[0])
    requires forall x :: x in first.highlights <==> x in p.highlights && x.id != keys[0]
    requires NoNewElements(q.doc, first.doc)
    requires forall k :: 0 <= k < |keys[1..]| && Find(first.highlights, keys[1..][k]).Some? ==> IdUnused(q.doc, keys[1..][k])
    ensures forall k :: 0 <= k < |keys| && Find(p.highlights, keys[k]).Some? ==> IdUnused(q.doc, keys[k])
  {
    forall k | 0 <= k < |keys| && Find(p.highlights, keys[k]).Some?
      ensures IdUnused(q.doc, keys[k])
    {
      if keys[k] == keys[0] {
        UnusedStaysUnused(q.doc, first.doc, keys[0]);
      } else {
        var x := p.highlights[Find(p.highlights, keys[k]).value];
        assert x in p.highlights;
        assert x in first.highlights;
        var i :| 0 <= i < |first.highlights| && first.highlights[i] == x;
        assert keys[1..][k - 1] == keys[k];
        assert Find(first.highlights, keys[1..][k - 1]).Some?;
      }
    }
  }

  /** A table from which every key of `hs` is gone, and which holds
      nothing but entries of `hs`, holds nothing. */
  lemma AllKeysGone(hs: seq<Highlight>, rest: seq<Highlight>)
    requires forall x :: x in rest <==> x in hs && x.id !in Ids(hs)
    ensures forall x :: x !in rest
    ensures rest == []
  {
    assert forall x :: x in hs ==> x.id in Ids(hs) by {
      forall x | x in hs
        ensures x.id in Ids(hs)
      {
        var i :| 0 <= i < |hs| && hs[i] == x;
        assert Ids(hs)[i] == x.id;
      }
    }
    if |rest| > 0 {
      HeadIn(rest);
    }
  }

  lemma HeadIn(hs: seq<Highlight>)
    requires |hs| > 0
    ensures hs[0] in hs
  {
  }

  /** One element of the imported array: when it has a position that
      resolves, a highlight is created there with its colour and comment.
      Its text is not checked. */
  function ImportOne(p: Page, item: StoredRecord, id: string): (q: Page)
    ensures forall x :: x in q.highlights ==> x in p.highlights || (x.id == id && Imported(x, item))
    ensures UniqueIds(p.highlights) && Find(p.highlights, id).None? ==> UniqueIds(q.highlights)
    ensures Consistent(p.highlights) ==> Consistent(q.highlights)
    ensures |q.highlights| <= |p.highlights| + 1
    ensures item.position.None? ==> q == p
    ensures item.position.Some? && Resolve(p.doc, item.position.value).None? ==> q == p
    ensures item.position.Some? && Resolve(p.doc, item.position.value).Some? ==>
              q == CreateHighlight(p, Resolve(p.doc, item.position.value).value, id, item.color, item.comment)
    ensures q.initialized == p.initialized && q.url == p.url
  {
    match item.position
    case None => p
    case Some(pos) =>
      match Resolve(p.doc, pos)
      case None => p
      case Some(r) => CreateHighlight(p, r, id, item.color, item.comment)
  }

  /** The ids from index `k` on are distinct and none of them is a key of
      `hs`: what `generateId` hands a run of imports. */
  predicate FreshIds(ids: seq<string>, k: nat, hs: seq<Highlight>) {
    && (forall i, j :: k <= i < j < |ids| ==> ids[i] != ids[j])
    && (forall i :: k <= i < |ids| ==> Find(hs, ids[i]).None?)
  }

  /** Distinct ids are fresh for an empty table. */
  lemma FreshForEmpty(ids: seq<string>)
    ensures (forall i, j :: 0 <= i < j < |ids| ==> ids[i] != ids[j]) ==> FreshIds(ids, 0, [])
  {
  }

  /** A step that adds at most an entry under `ids[k]` leaves the later ids
      fresh. */
  lemma StillFresh(hs: seq<Highlight>, next: seq<Highlight>, ids: seq<string>, k: nat)
    requires k < |ids| && FreshIds(ids, k, hs)
    requires forall x :: x in next ==> x in hs || x.id == ids[k]
    ensures FreshIds(ids, k + 1, next)
  {
    forall i | k + 1 <= i < |ids|
      ensures Find(next, ids[i]).None?
    {
      forall j | 0 <= j < |next|
        ensures next[j].id != ids[i]
      {
        assert next[j] in next;
        if next[j] in hs {
          var t :| 0 <= t < |hs| && hs[t] == next[j];
          assert Find(hs, ids[i]).None?;
        }
      }
    }
  }

  /** Entry `x` came from record `item`: its text is the stored selected
      text, and its colour and comment are the record's, defaults applied. */
  predicate Imported(x: Highlight, item: StoredRecord) {
    && item.position.Some? && x.text == item.position.value.selectedText
    && x.color == item.color.GetOr(DefaultColor) && x.comment == item.comment.GetOr("")
  }

  /** The records from index `k` on, the i-th taking id `ids[i]`. */
  function ImportFrom(p: Page, items: seq<StoredRecord>, ids: seq<string>, k: nat): (q: Page)
    requires |ids| == |items| && k <= |items|
    ensures forall x :: x in q.highlights ==>
              (x in p.highlights || exists i :: k <= i < |items| && x.id == ids[i] && Imported(x, items[i]))
    ensures Consistent(p.highlights) ==> Consistent(q.highlights)
    ensures |q.highlights| <= |p.highlights| + (|items| - k)
    ensures UniqueIds(p.highlights) && FreshIds(ids, k, p.highlights) ==> UniqueIds(q.highlights)
    ensures q.initialized == p.initialized && q.url == p.url
    decreases |items| - k
  {
    if k == |items| then p
    else
      var next := ImportOne(p, items[k], ids[k]);
      if FreshIds(ids, k, p.highlights) then
        StillFresh(p.highlights, next.highlights, ids, k);
        ImportFrom(next, items, ids, k + 1)
      else ImportFrom(next, items, ids, k + 1)
  }

  /** `importHighlights(dataArray)`: every current entry is removed, then
      each record is imported in order. */
  function ImportHighlights(p: Page, items: seq<StoredRecord>, ids: seq<string>): (q: Page)
    requires |ids| == |items|
    ensures forall x :: x in q.highlights ==> exists i :: 0 <= i < |items| && x.id == ids[i] && Imported(x, items[i])
    ensures Consistent(q.highlights)
    ensures |q.highlights| <= |items|
    ensures (forall i, j :: 0 <= i < j < |ids| ==> ids[i] != ids[j]) ==> UniqueIds(q.highlights)
    ensures forall i :: 0 <= i < |p.highlights| && p.highlights[i].id !in ids ==> IdUnused(q.doc, p.highlights[i].id)
    ensures q.initialized == p.initialized && q.url == p.url
  {
    var cleared := RemoveAll(p, Ids(p.highlights));
    AllKeysGone(p.highlights, cleared.highlights);
    FreshForEmpty(ids);
    ImportClears(p, items, ids);
    ImportFrom(cleared, items, ids, 0)
  }

  /** The old highlights' spans and labels are gone after the import,
      unless a record brings an id back. */
  lemma ImportClears(p: Page, items: seq<StoredRecord>, ids: seq<string>)
    requires |ids| == |items|
    ensures var q := ImportFrom(RemoveAll(p, Ids(p.highlights)), items, ids, 0);
            forall i :: 0 <= i < |p.highlights| && p.highlights[i].id !in ids ==> IdUnused(q.doc, p.highlights[i].id)
  {
    var keys := Ids(p.highlights);
    var cleared := RemoveAll(p, keys);
    forall i | 0 <= i < |p.highlights| && p.highlights[i].id !in ids
      ensures IdUnused(ImportFrom(cleared, items, ids, 0).doc, p.highlights[i].id)
    {
      var o := p.highlights[i].id;
      assert keys[i] == o;
      assert Find(p.highlights, keys[i]).Some?;
      ImportKeepsOthers(cleared, items, ids, 0, o);
    }
  }

  /** Importing the records from `k` on leaves unused an id none of their
      ids is. */
  lemma {:induction false} ImportKeepsOthers(p: Page, items: seq<StoredRecord>, ids: seq<string>, k: nat, o: string)
    requires |ids| == |items| && k <= |items|
    requires IdUnused(p.doc, o) && forall i :: k <= i < |ids| ==> ids[i] != o
    ensures IdUnused(ImportFrom(p, items, ids, k).doc, o)
    decreases |items| - k
  {
    if k < |items| {
      var next := ImportOne(p, items[k], ids[k]);
      ImportOneKeepsOthers(p, items[k], ids[k], o);
      ImportKeepsOthers(next, items, ids, k + 1, o);
    }
  }

  /** One import adds elements for its own id only. */
  lemma ImportOneKeepsOthers(p: Page, item: StoredRecord, id: string, o: string)
    requires IdUnused(p.doc, o) && o != id
    ensures IdUnused(ImportOne(p, item, id).doc, o)
  {
    if item.position.Some? && Resolve(p.doc, item.position.value).Some? {
      var r := Resolve(p.doc, item.position.value).value;
      CreateAddsOnly(p, r, id, item.color, item.comment);
      OthersStayUnused(ImportOne(p, item, id).doc, p.doc, id, o);
    }
  }

  /** Creating a highlight adds its span and label and no other element. */
  lemma CreateAddsOnly(p: Page, r: Range, id: string, color: Option<string>, comment: Option<string>)
    requires ValidRange(p.doc, r)
    ensures AddsOnlyFor(CreateHighlight(p, r, id, color, comment).doc, p.doc, id)
  {
    DecorateAddsOnly(p.doc, r, id, color.GetOr(DefaultColor), comment.GetOr(""));
  }

  lemma DecorateAddsOnly(doc: Doc, r: Range, id: string, color: string, comment: string)
    requires ValidRange(doc, r)
    ensures AddsOnlyFor(Decorate(doc, r, id, color, comment), doc, id)
  {
    var wrapped := Wrap(doc, r, id, color);
    WrapAddsOnlySpan(doc, r, id, color);
    if Shown(comment) {
      var cleared := RemoveComment(wrapped, id);
      RemoveCommentAddsNoElement(wrapped, id);
      NoneIsOnlyFor(cleared, wrapped, id);
      InsertCommentAddsOnlyLabel(cleared, id, comment);
      OnlyForCompose(cleared, wrapped, doc, id);
      OnlyForCompose(InsertComment(cleared, id, comment), cleared, doc, id);
    }
  }

  /** One element of the saved array: it is loaded only when its position
      resolves and the resolved text equals the stored `text`. A record
      without a position makes the resolver throw, which the loop catches. */
  function LoadOne(p: Page, item: StoredRecord, id: string): (q: Page)
    ensures forall x :: x in q.highlights ==> x in p.highlights || (x.id == id && Loaded(x, item))
    ensures UniqueIds(p.highlights) && Find(p.highlights, id).None? ==> UniqueIds(q.highlights)
    ensures Consistent(p.highlights) ==> Consistent(q.highlights)
    ensures |q.highlights| <= |p.highlights| + 1
    ensures item.position.None? || item.text.None? ==> q == p
    ensures item.position.Some? && Resolve(p.doc, item.position.value).None? ==> q == p
    ensures item.position.Some? && Resolve(p.doc, item.position.value).Some? ==>
              var r := Resolve(p.doc, item.position.value).value;
              && (item.text == Some(RangeText(p.doc, r)) ==> q == CreateHighlight(p, r, id, item.color, item.comment))
              && (item.text != Some(RangeText(p.doc, r)) ==> q == p)
    ensures q.initialized == p.initialized && q.url == p.url
  {
    match item.position
    case None => p
    case Some(pos) =>
      match Resolve(p.doc, pos)
      case None => p
      case Some(r) =>
        if item.text == Some(RangeText(p.doc, r)) then CreateHighlight(p, r, id, item.color, item.comment)
        else p
  }

  /** Entry `x` came from saved record `item`: its text is the stored text,
      which is also the stored selected text. */
  predicate Loaded(x: Highlight, item: StoredRecord) {
    && Imported(x, item) && item.text == Some(x.text)
  }

  function LoadFrom(p: Page, items: seq<StoredRecord>, ids: seq<string>, k: nat): (q: Page)
    requires |ids| == |items| && k <= |items|
    ensures forall x :: x in q.highlights ==>
              (x in p.highlights || exists i :: k <= i < |items| && x.id == ids[i] && Loaded(x, items[i]))
    ensures Consistent(p.highlights) ==> Consistent(q.highlights)
    ensures |q.highlights| <= |p.highlights| + (|items| - k)
    ensures UniqueIds(p.highlights) && FreshIds(ids, k, p.highlights) ==> UniqueIds(q.highlights)
    ensures q.initialized == p.initialized && q.url == p.url
    decreases |items| - k
  {
    if k == |items| then p
    else
      var next := LoadOne(p, items[k], ids[k]);
      if FreshIds(ids, k, p.highlights) then
        StillFresh(p.highlights, next.highlights, ids, k);
        LoadFrom(next, items, ids, k + 1)
      else LoadFrom(next, items, ids, k + 1)
  }

  /** `loadHighlights()`: runs once per page. A missing or unreadable
      saved value (`None`) only marks the page initialized. */
  function LoadHighlights(p: Page, saved: Option<seq<StoredRecord>>, ids: seq<string>): (q: Page)
    requires saved.Some? ==> |ids| == |saved.value|
    ensures q.initialized
    ensures p.initialized ==> q == p
    ensures !p.initialized && saved.None? ==> q == p.(initialized := true)
    ensures !p.initialized && saved.Some? ==>
              forall x :: x in q.highlights ==>
                (x in p.highlights || exists i :: 0 <= i < |ids| && x.id == ids[i] && Loaded(x, saved.value[i]))
    ensures Consistent(p.highlights) ==> Consistent(q.highlights)
    ensures saved.Some? ==> |q.highlights| <= |p.highlights| + |saved.value|
    ensures UniqueIds(p.highlights) && FreshIds(ids, 0, p.highlights) ==> UniqueIds(q.highlights)
  {
    if p.initialized then p
    else
      var q := p.(initialized := true);
      match saved
      case None => q
      case Some(items) => LoadFrom(q, items, ids, 0)
  }

  // ----- properties relating operations -----

  /** A second `loadHighlights` does nothing. */
  lemma LoadOnce(p: Page, s1: Option<seq<StoredRecord>>, ids1: seq<string>, s2: Option<seq<StoredRecord>>, ids2: seq<string>)
    requires s1.Some? ==> |ids1| == |s1.value|
    requires s2.Some? ==> |ids2| == |s2.value|
    ensures LoadHighlights(LoadHighlights(p, s1, ids1), s2, ids2) == LoadHighlights(p, s1, ids1)
  {
  }

  /** Of two comment updates, the later one decides both the entry and the
      page. */
  lemma UpdateCommentLastWins(p: Page, id: string, c1: Option<string>, c2: Option<string>)
    ensures UpdateComment(UpdateComment(p, id, c1), id, c2) == UpdateComment(p, id, c2)
  {
    var q1 := UpdateComment(p, id, c1);
    match Find(p.highlights, id)
    case None =>
    case Some(i) =>
      assert Find(q1.highlights, id) == Find(p.highlights, id) by {
        FindSameIds(p.highlights, q1.highlights, id);
      }
      var hs := p.highlights;
      assert q1.highlights == hs[i := hs[i].(comment := c1.GetOr(""))];
      assert q1.highlights[i := q1.highlights[i].(comment := c2.GetOr(""))] == hs[i := hs[i].(comment := c2.GetOr(""))];
      RelabelLastWins(p.doc, id, c1.GetOr(""), c2.GetOr(""));
  }

  /** Only the last label counts: relabelling looks at the document with
      the old label taken away. */
  lemma RelabelLastWins(doc: Doc, id: string, c1: string, c2: string)
    ensures Relabel(Relabel(doc, id, c1), id, c2) == Relabel(doc, id, c2)
  {
    assert RemoveComment(Relabel(doc, id, c1), id) == RemoveComment(doc, id);
  }

  /** Of two colour changes, the later one decides both the entry and the
      page. */
  lemma ChangeColorLastWins(p: Page, id: string, c1: string, c2: string)
    ensures ChangeColor(ChangeColor(p, id, c1), id, c2) == ChangeColor(p, id, c2)
  {
    var q1 := ChangeColor(p, id, c1);
    match Find(p.highlights, id)
    case None =>
    case Some(i) =>
      if SpanAttached(p.doc, id) {
        assert Find(q1.highlights, id) == Find(p.highlights, id) by {
          FindSameIds(p.highlights, q1.highlights, id);
        }
        assert SpanAttached(q1.doc, id) by {
          RecolorKeepsStructure(p.doc, id, c1);
          var k :| 0 <= k < |p.doc| && p.doc[k].InSpan(id);
          assert q1.doc[k].InSpan(id);
        }
        RecolorLastWins(p.doc, id, c1, c2);
        var q2 := ChangeColor(q1, id, c2);
        var q := ChangeColor(p, id, c2);
        assert q2.highlights == q.highlights;
      }
  }

  /** Lookups agree on two tables holding the same ids in the same order. */
  lemma FindSameIds(a: seq<Highlight>, b: seq<Highlight>, id: string)
    requires |a| == |b| && forall i :: 0 <= i < |a| ==> a[i].id == b[i].id
    ensures Find(a, id) == Find(b, id)
  {
    FindFromSameIds(a, b, id, 0);
  }

  lemma {:induction false} FindFromSameIds(a: seq<Highlight>, b: seq<Highlight>, id: string, from: nat)
    requires from <= |a| && |a| == |b| && forall i :: 0 <= i < |a| ==> a[i].id == b[i].id
    ensures FindFrom(a, id, from) == FindFrom(b, id, from)
    decreases |a| - from
  {
    if from < |a| {
      FindFromSameIds(a, b, id, from + 1);
    }
  }

  /** Creating a highlight with a fresh id and any comment, then removing
      it, gives back the table and the page text; the selected text stays
      behind as a text node of its own. */
  lemma CreateThenRemoveHighlight(p: Page, r: Range, id: string, color: Option<string>, comment: Option<string>)
    requires ValidRange(p.doc, r) && IdUnused(p.doc, id) && Find(p.highlights, id).None?
    ensures var q := RemoveHighlight(CreateHighlight(p, r, id, color, comment), id);
            var s, e := r.startLeaf, r.endLeaf;
            && q.highlights == p.highlights
            && q.doc == Splice(p.doc, s, e, [Leaf(p.doc[s].text[..r.startOffset], p.doc[s].ancestors),
                                             Leaf(RangeText(p.doc, r), RestoredChain(p.doc, r)),
                                             Leaf(p.doc[e].text[r.endOffset..], p.doc[e].ancestors)])
  {
    var c := color.GetOr(DefaultColor);
    var created := CreateHighlight(p, r, id, color, comment);
    var wrapped := Wrap(p.doc, r, id, c);
    assert RemoveComment(created.doc, id) == wrapped;
    CreateThenRemove(p.doc, r, id, c);
    var hl := created.highlights[|p.highlights|];
    assert created.highlights == p.highlights + [hl];
    DeleteLast(p.highlights, hl);
  }

  /** Deleting the key that was added last gives back the table before. */
  lemma {:induction false} DeleteLast(hs: seq<Highlight>, hl: Highlight)
    requires Find(hs, hl.id).None?
    ensures Delete(hs + [hl], hl.id) == hs
    decreases |hs|
  {
    if |hs| == 0 {
      assert Delete([hl][1..], hl.id) == [];
    } else {
      var t := hs + [hl];
      assert Delete(t, hl.id) == [hs[0]] + Delete(hs[1..] + [hl], hl.id) by {
        assert t[0] == hs[0] && hs[0].id != hl.id;
        assert t[1..] == hs[1..] + [hl];
        DeleteKeepsHead(t, hl.id);
      }
      assert Delete(hs[1..] + [hl], hl.id) == hs[1..] by {
        assert Find(hs[1..], hl.id).None? by {
          assert forall i :: 0 <= i < |hs[1..]| ==> hs[1..][i] == hs[i + 1];
        }
        DeleteLast(hs[1..], hl);
      }
      assert hs == [hs[0]] + hs[1..];
    }
  }

  /** An entry under another key stays at the head. */
  lemma DeleteKeepsHead(hs: seq<Highlight>, id: string)
    requires |hs| > 0 && hs[0].id != id
    ensures Delete(hs, id) == [hs[0]] + Delete(hs[1..], id)
  {
  }

  /** Saving a highlight made on a clean page and loading the saved array
      into the same page, freshly opened, brings the highlight back with
      its text, colour and comment, under the id the reload generates. */
  lemma SaveThenLoad(doc: Doc, url: string, r: Range, id: string, color: Option<string>, comment: Option<string>, id2: string)
    requires ValidRange(doc, r) && Clean(doc) && RangeText(doc, r) != ""
    ensures var empty := Page(doc, [], false, url);
            var made := CreateHighlight(empty, r, id, color, comment);
            |made.highlights| == 1 && Restored(LoadHighlights(empty, Some(Snapshot(made)), [id2]), made.highlights[0], id2)
  {
    var empty := Page(doc, [], false, url);
    CreateOnEmpty(empty, r, id, color, comment);
    RoundTrip(doc, r, url);
    Reload(empty, CreateHighlight(empty, r, id, color, comment), id2);
  }

  /** The page holds one entry, under `id2`, with the text, colour and
      comment of `h`. */
  predicate Restored(q: Page, h: Highlight, id2: string) {
    && |q.highlights| == 1 && q.highlights[0].id == id2
    && q.highlights[0].text == h.text && q.highlights[0].color == h.color
    && q.highlights[0].comment == h.comment
  }

  /** A saved single entry whose position resolves, in a freshly opened
      page, to a range with the entry's text comes back with its text,
      colour and comment. */
  lemma Reload(empty: Page, made: Page, id2: string)
    requires empty.highlights == [] && !empty.initialized && |made.highlights| == 1
    requires var found := Resolve(empty.doc, made.highlights[0].position);
             found.Some? && RangeText(empty.doc, found.value) == made.highlights[0].text
    ensures Restored(LoadHighlights(empty, Some(Snapshot(made)), [id2]), made.highlights[0], id2)
  {
    var h := made.highlights[0];
    var rec := Record(h, None);
    assert Snapshot(made) == [rec];
    var found := Resolve(empty.doc, h.position);
    var start := empty.(initialized := true);
    var one := CreateHighlight(start, found.value, id2, Some(h.color), Some(h.comment));
    assert LoadHighlights(empty, Some([rec]), [id2]) == one by {
      LoadResolved(start, rec, id2, found.value);
      LoadSingle(start, rec, id2);
    }
    CreateOnEmpty(start, found.value, id2, Some(h.color), Some(h.comment));
  }

  /** On an empty table, `CreateHighlight` leaves exactly the new entry. */
  lemma CreateOnEmpty(p: Page, r: Range, id: string, color: Option<string>, comment: Option<string>)
    requires ValidRange(p.doc, r) && p.highlights == []
    ensures var q := CreateHighlight(p, r, id, color, comment);
            |q.highlights| == 1 && Made(q.highlights[0], p.doc, p.url, r, id, color, comment)
  {
    var q := CreateHighlight(p, r, id, color, comment);
    assert q.highlights[0] in q.highlights;
  }

  /** A record whose position resolves to a range with the stored text is
      loaded by creating a highlight on that range. */
  lemma LoadResolved(p: Page, item: StoredRecord, id: string, r: Range)
    requires item.position.Some? && Resolve(p.doc, item.position.value) == Some(r)
    requires item.text == Some(RangeText(p.doc, r))
    ensures LoadOne(p, item, id) == CreateHighlight(p, r, id, item.color, item.comment)
  {
  }

  /** Importing a single record whose position resolves on the cleared
      page leaves exactly one entry: the record's, under its fresh id. */
  lemma ImportResolving(p: Page, rec: StoredRecord, id: string)
    requires rec.position.Some?
    requires Resolve(RemoveAll(p, Ids(p.highlights)).doc, rec.position.value).Some?
    ensures var q := ImportHighlights(p, [rec], [id]);
            |q.highlights| == 1 && q.highlights[0].id == id && Imported(q.highlights[0], rec)
  {
    var cleared := RemoveAll(p, Ids(p.highlights));
    AllKeysGone(p.highlights, cleared.highlights);
    var r := Resolve(cleared.doc, rec.position.value).value;
    assert ImportHighlights(p, [rec], [id]) == ImportOne(cleared, rec, id) by {
      ImportSingle(cleared, rec, id);
    }
    CreateOnEmpty(cleared, r, id, rec.color, rec.comment);
  }

  /** Importing a one-element array is importing its element. */
  lemma ImportSingle(p: Page, item: StoredRecord, id: string)
    ensures ImportFrom(p, [item], [id], 0) == ImportOne(p, item, id)
  {
  }

  /** Loading a one-element array is loading its element. */
  lemma LoadSingle(p: Page, item: StoredRecord, id: string)
    ensures LoadFrom(p, [item], [id], 0) == LoadOne(p, item, id)
  {
  }
}

=== FILE: textindex.dfy ===
/** The document text index: the text nodes the walker accepts, flattened
    into one buffer, with the buffer interval each node occupies. */
module TextIndex {
  import opened Basics
  import opened Dom

  /** One accepted text node (`{node, start, end}`): the node's position in
      the document and the buffer interval holding its text. */
  datatype Segment = Segment(leaf: nat, start: nat, end: nat)

  /** `fullText` and `textNodes`. */
  datatype Index = Index(buffer: string, segments: seq<Segment>)

  /** The text of the accepted leaves, concatenated in document order. */
  function IndexedText(leaves: seq<Leaf>): string {
    Gather(leaves, (l: Leaf) => l.Indexed())
  }

  /** Segment `s` names an accepted leaf of `doc` and the interval of
      `buffer` that holds exactly that leaf's text, placed after the text of
      every accepted leaf before it. */
  ghost predicate SegmentOf(doc: Doc, buffer: string, s: Segment) {
    && s.leaf < |doc| && doc[s.leaf].Indexed()
    && s.start == |IndexedText(doc[..s.leaf])|
    && s.end == s.start + |doc[s.leaf].text|
    && s.end <= |buffer| && buffer[s.start..s.end] == doc[s.leaf].text
  }

  /** `idx` is an index of `doc`: one segment per accepted leaf, in document
      order, laid end to end from the start of the buffer to its end. */
  ghost predicate Describes(doc: Doc, idx: Index) {
    && SegmentsFit(doc, idx)
    && InDocumentOrder(idx.segments)
    && CoversAccepted(doc, idx.segments)
    && EndToEnd(idx)
  }

  ghost predicate SegmentsFit(doc: Doc, idx: Index) {
    forall i :: 0 <= i < |idx.segments| ==> SegmentOf(doc, idx.buffer, idx.segments[i])
  }

  predicate InDocumentOrder(segs: seq<Segment>) {
    forall i, j :: 0 <= i < j < |segs| ==> segs[i].leaf < segs[j].leaf
  }

  predicate CoversAccepted(doc: Doc, segs: seq<Segment>) {
    forall k :: 0 <= k < |doc| && doc[k].Indexed() ==> exists i :: 0 <= i < |segs| && segs[i].leaf == k
  }

  /** Each segment starts where the previous one ends; together they run
      from 0 to the end of the buffer. */
  ghost predicate EndToEnd(idx: Index) {
    var segs := idx.segments;
    && (|segs| == 0 ==> idx.buffer == "")
    && (|segs| > 0 ==> segs[0].start == 0 && segs[|segs| - 1].end == |idx.buffer|)
    && (forall i, j :: 0 <= i < j < |segs| && j == i + 1 ==> segs[j].start == segs[i].end)
  }

  /** Position of offset `o` of leaf `k` within the buffer. */
  function BufferOffset(doc: Doc, k: nat, o: int): int
    requires k <= |doc|
  {
    |IndexedText(doc[..k])| + o
  }

  /** The walker loop of `deserializeTextPosition`: visits the text nodes in
      order, skips those whose parent element is a script, a style or a
      decoration, and appends the others to the buffer, recording where each
      one lands. The buffer is the concatenation of the accepted leaves. */
  function BuildIndex(doc: Doc): (idx: Index)
    ensures idx.buffer == IndexedText(doc)
    ensures Describes(doc, idx)
    decreases |doc|
  {
    if |doc| == 0 then Index("", [])
    else
      var n := |doc| - 1;
      var prev := BuildIndex(doc[..n]);
      var leaf := doc[n];
      if leaf.Indexed() then
        var idx := Index(prev.buffer + leaf.text,
                         prev.segments + [Segment(n, |prev.buffer|, |prev.buffer| + |leaf.text|)]);
        ExtendAccepted(doc, prev, idx);
        idx
      else
        ExtendRejected(doc, prev);
        prev
  }

  /** Appending one leaf appends its text when it is accepted and nothing
      otherwise. */
  lemma IndexedTextSnoc(a: seq<Leaf>, x: Leaf)
    ensures IndexedText(a + [x]) == IndexedText(a) + (if x.Indexed() then x.text else "")
  {
    GatherAppend(a, [x], (l: Leaf) => l.Indexed());
  }

  /** A rejected leaf leaves the index of the document before it unchanged. */
  lemma ExtendRejected(doc: Doc, prev: Index)
    requires |doc| > 0 && !doc[|doc| - 1].Indexed()
    requires prev.buffer == IndexedText(doc[..|doc| - 1]) && Describes(doc[..|doc| - 1], prev)
    ensures prev.buffer == IndexedText(doc) && Describes(doc, prev)
  {
    var n := |doc| - 1;
    assert doc == doc[..n] + [doc[n]];
    IndexedTextSnoc(doc[..n], doc[n]);
    OldSegmentsStay(doc, prev, prev.buffer);
    assert SegmentsFit(doc, prev);
    assert CoversAccepted(doc, prev.segments) by {
      forall k | 0 <= k < |doc| && doc[k].Indexed()
        ensures exists i :: 0 <= i < |prev.segments| && prev.segments[i].leaf == k
      {
        assert doc[..n][k] == doc[k];
      }
    }
  }

  /** An accepted leaf appends its text and one segment. */
  lemma ExtendAccepted(doc: Doc, prev: Index, idx: Index)
    requires |doc| > 0 && doc[|doc| - 1].Indexed()
    requires prev.buffer == IndexedText(doc[..|doc| - 1]) && Describes(doc[..|doc| - 1], prev)
    requires idx.buffer == prev.buffer + doc[|doc| - 1].text
    requires idx.segments == prev.segments + [Segment(|doc| - 1, |prev.buffer|, |idx.buffer|)]
    ensures idx.buffer == IndexedText(doc) && Describes(doc, idx)
  {
    var n := |doc| - 1;
    assert doc == doc[..n] + [doc[n]];
    IndexedTextSnoc(doc[..n], doc[n]);
    FitAccepted(doc, prev, idx);
    OrderAccepted(doc, prev, idx);
    EndToEndExtend(prev, idx);
    CoverAccepted(doc, prev.segments, idx.segments);
  }

  lemma FitAccepted(doc: Doc, prev: Index, idx: Index)
    requires |doc| > 0 && doc[|doc| - 1].Indexed()
    requires prev.buffer == IndexedText(doc[..|doc| - 1]) && SegmentsFit(doc[..|doc| - 1], prev)
    requires idx.buffer == prev.buffer + doc[|doc| - 1].text
    requires idx.segments == prev.segments + [Segment(|doc| - 1, |prev.buffer|, |idx.buffer|)]
    ensures SegmentsFit(doc, idx)
  {
    var n := |doc| - 1;
    var last := Segment(n, |prev.buffer|, |idx.buffer|);
    OldSegmentsStay(doc, prev, idx.buffer);
    assert SegmentOf(doc, idx.buffer, last) by {
      assert doc[..n] == doc[..last.leaf];
      assert idx.buffer[|prev.buffer|..|idx.buffer|] == doc[n].text;
    }
    FitExtend(doc, idx.buffer, prev.segments, last);
  }

  lemma OrderAccepted(doc: Doc, prev: Index, idx: Index)
    requires |doc| > 0
    requires SegmentsFit(doc[..|doc| - 1], prev) && InDocumentOrder(prev.segments)
    requires idx.segments == prev.segments + [Segment(|doc| - 1, |prev.buffer|, |idx.buffer|)]
    ensures InDocumentOrder(idx.segments)
  {
    var n := |doc| - 1;
    assert forall i :: 0 <= i < |prev.segments| ==> prev.segments[i].leaf < n by {
      assert SegmentsFit(doc[..n], prev);
    }
    OrderExtend(prev.segments, Segment(n, |prev.buffer|, |idx.buffer|));
  }

  lemma FitExtend(doc: Doc, buffer: string, segs: seq<Segment>, last: Segment)
    requires forall i :: 0 <= i < |segs| ==> SegmentOf(doc, buffer, segs[i])
    requires SegmentOf(doc, buffer, last)
    ensures SegmentsFit(doc, Index(buffer, segs + [last]))
  {
    var all := segs + [last];
    forall i | 0 <= i < |all|
      ensures SegmentOf(doc, buffer, all[i])
    {
      if i < |segs| {
        assert all[i] == segs[i];
      }
    }
  }

  lemma OrderExtend(segs: seq<Segment>, last: Segment)
    requires InDocumentOrder(segs)
    requires forall i :: 0 <= i < |segs| ==> segs[i].leaf < last.leaf
    ensures InDocumentOrder(segs + [last])
  {
  }

  lemma EndToEndExtend(prev: Index, idx: Index)
    requires EndToEnd(prev)
    requires |idx.buffer| >= |prev.buffer| && |idx.segments| > 0
    requires idx.segments == prev.segments + [Segment(idx.segments[|idx.segments| - 1].leaf, |prev.buffer|, |idx.buffer|)]
    ensures EndToEnd(idx)
  {
    var segs := idx.segments;
    forall i, j | 0 <= i < j < |segs| && j == i + 1
      ensures segs[j].start == segs[i].end
    {
      if j < |prev.segments| {
        assert segs[i] == prev.segments[i] && segs[j] == prev.segments[j];
      }
    }
  }

  lemma CoverAccepted(doc: Doc, prevSegs: seq<Segment>, segs: seq<Segment>)
    requires |doc| > 0 && CoversAccepted(doc[..|doc| - 1], prevSegs)
    requires |segs| > 0 && segs == prevSegs + [segs[|segs| - 1]] && segs[|segs| - 1].leaf == |doc| - 1
    ensures CoversAccepted(doc, segs)
  {
    var n := |doc| - 1;
    forall k | 0 <= k < |doc| && doc[k].Indexed()
      ensures exists i :: 0 <= i < |segs| && segs[i].leaf == k
    {
      if k == n {
        assert segs[|segs| - 1].leaf == k;
      } else {
        assert doc[..n][k] == doc[k];
        var i :| 0 <= i < |prevSegs| && prevSegs[i].leaf == k;
        assert segs[i].leaf == k;
      }
    }
  }

  /** Segments of a prefix remain segments once the buffer grows. */
  lemma OldSegmentsStay(doc: Doc, prev: Index, buffer: string)
    requires |doc| > 0
    requires SegmentsFit(doc[..|doc| - 1], prev)
    requires |prev.buffer| <= |buffer| && buffer[..|prev.buffer|] == prev.buffer
    ensures forall i :: 0 <= i < |prev.segments| ==> SegmentOf(doc, buffer, prev.segments[i])
  {
    var pre := doc[..|doc| - 1];
    forall i | 0 <= i < |prev.segments|
      ensures SegmentOf(doc, buffer, prev.segments[i])
    {
      var s := prev.segments[i];
      assert SegmentOf(pre, prev.buffer, s);
      assert pre[..s.leaf] == doc[..s.leaf];
      assert pre[s.leaf] == doc[s.leaf];
      SliceOfSlice(buffer, 0, |prev.buffer|, s.start, s.end);
    }
  }
}
